=== FILE: README.md ===
# PrivateDerby simulation engine, in Dafny

PrivateDerby is a turn-based school-life game. The player moves between seven
places of a school (dorm, bathroom, school gate, classroom, cafeteria,
library, training field), and each button press spends minutes on an in-game
clock. Each press may change the player's stats, money and subject
experience, and it writes lines to a log. A timetable puts the player into
lessons of five turns on weekday mornings. A curfew warning fires at 22:00.

This project models the game's engine as pure functions over an immutable
`GameState`:

- `Types` holds the state, the action datatype and the partial update an
  action returns. `Merge` is the shallow merge `{ ...state, ...update }`.
- `Constants` holds the static configuration: the location graph, the grade
  thresholds, the timetable and the initial stats.
- `Utils` holds the helpers `formatTime`, `getGameDate`, `calculateLevel`,
  `getMinutesFromMidnight` and `clamp`, with JavaScript's truncating `%`
  written out.
- `Clock` is `advanceTime`. Its carry loops appear both as recursive mirrors
  and in closed form, and a lemma shows the two agree. Mood also drifts
  toward 50 here.
- `ActionCatalog` is `getAvailableActions` plus the actions' `condition` and
  `execute` closures, recast as a tagged `Action` datatype with `Gate`,
  `CostMinutes` and `Execute` interpreters.
- `ActionPanel` is the panel's condition filter.
- `Engine` has three parts:
  - `Dispatch` is `handleAction`. It queues the log lines, merges the update,
    advances the clock by the real cost, and steps the lesson counter.
  - `ScheduleCheck` is the schedule/curfew effect.
  - `Step` and `Run` cover one click and a series of clicks.
- `Invariants` states what every reachable state satisfies, and proves that
  each click preserves it.
- `Effects` states what individual clicks do and how a lesson runs its
  course.
- `AcademicGrade` covers the academic grade that is never recomputed. It has the
  code as written, and the corrected reading that the rest of the model uses.

Randomness is passed in as parameters: the listening roll and the
eye-contact roll are the booleans of `Rolls`. The engine's state updates are
modelled as sequential pure steps:

1. The log lines an action queues are appended. They are stamped with the
   clock at the time of the click.
2. The returned update is merged.
3. The clock advances.
4. During a lesson, the counter steps. The bell line is appended after the
   mode is reset and is stamped with the advanced clock.
5. The schedule effect runs once.

The effect lists the clock and the place as its dependencies. The clock
object is replaced on every click, so the effect runs after every click.

Classroom self-study is offered when the minute of the day is below 540 or
above 1020, so not at exactly 17:00 (App.tsx:365); `ActionCatalog.LocationActions`
follows this bound.

## Model

| member | source | states |
|---|---|---|
| Types.Merge | App.tsx:406-409 | the shallow merge, field by field: a field the update carries replaces the state's, a field it lacks keeps the state's value. Hence the empty update (`{}`, App.tsx:392) leaves the state unchanged, and an update that spreads a whole state yields exactly that state, whatever it is merged into, so the old log it carries replaces the current one |
| Constants.LocationsWellFormed | constants.ts:25-104 | every location's id is its key; every edge leads to a known location, has a positive cost and is not a self-edge |
| Constants.EdgeTargetKnown | constants.ts:25-104 | any declared edge leads to a known location and costs more than zero minutes |
| Constants.LocationsSymmetric | constants.ts:25-104 | for every edge a→b of cost c there is an edge b→a of the same cost |
| Constants.LocationsTargetsDistinct | constants.ts:25-104 | no location lists the same target twice |
| Constants.ThresholdsDescending | constants.ts:106-115 | grade thresholds are strictly descending in experience and the last one is 0 |
| Constants.ScheduleWellFormed | constants.ts:117-122 | timetable slots are 50 minutes long, sorted and non-overlapping |
| Constants.InitialStatsAtCaps | constants.ts:4-17 | energy, spirit and health start at their maxima; mood starts at 80, within 0..100 |
| Constants.SubjectsComplete | constants.ts:19-22 | there are eight distinct subjects, and the initial academics give every one of them 0 experience |
| Utils.JsRem | App.tsx:80 | JavaScript remainder: strictly inside (-b, b), with the dividend's sign, and it recombines with the truncated quotient into the dividend |
| Utils.TwoDigits | utils.ts:5-6 | a number below 100 padded to two characters gives two digits that read back as the number |
| Utils.FormatTime | utils.ts:4-9 | for a normalised clock: eight characters; the weekday table entry (index 0 = Sunday); a space; two digits, a colon and two digits, which read back as the clock's hour and minute |
| Utils.FormatTimeSplits | App.tsx:57 | splitting the formatted clock at spaces gives exactly the weekday name and the "HH:MM" text |
| Utils.Timestamp | App.tsx:57 | a log timestamp is the "HH:MM" text: for a normalised clock it is five characters and is the formatted clock after the weekday and the space |
| Utils.MinutesFromMidnight | utils.ts:39-41 | for a normalised clock the count lies in 0..1439 |
| Utils.MinutesFromMidnightDecomposes | utils.ts:39-41 | the count divides back into the hour and the minute |
| Utils.Clamp | utils.ts:48 | inside [lo, hi] when lo ≤ hi; the input itself when already in range; lo below the range, hi above it; hi when the bounds are crossed |
| Utils.FindThreshold | utils.ts:35 | `find` gives none exactly when no threshold is met; otherwise the first threshold met, and none before it is met |
| Utils.CalculateLevel | utils.ts:34-37 | the grade agrees with the comparison cascade S≥320, A≥160, B≥80, C≥60, D≥40, E≥20, F≥10, else G; S exactly from 320, G exactly below 10 |
| Utils.LookupByCases | utils.ts:34-37 | the table lookup and the independent comparison cascade agree on every input |
| Utils.CalculateLevelMonotone | utils.ts:34-37 | more experience never gives a lower grade |
| Utils.MonthStartIsRunningTotal | utils.ts:14 | the month-start table is the running total of the April-to-March month lengths, ending at 365 |
| Utils.GetGameDate | utils.ts:11-32 | the year is 1 + (dayCount−1) div 365. For a positive day count the month loop stops inside the year, the month is 1..12, the day is within that month's length, and the date counts back to the same day count. Day 1 is year 1, April 1. Non-positive counts give April with a day of at most 1 |
| Clock.RollWeekdayMod | App.tsx:77-81 | rolling a weekday in 0..6 forward k times by the truncating `(w + 1) % 7` gives (w + k) mod 7 |
| Clock.CarryMinutesClosedForm | App.tsx:72-75 | the minute-carry loop equals one division by 60 |
| Clock.CarryHoursClosedForm | App.tsx:77-81 | the hour-carry loop equals one division by 24, with the weekday rolled once per day |
| Clock.AdvanceClockMatchesLoops | App.tsx:67-81 | the closed-form clock advance equals the source's loops for every clock and every advance |
| Clock.AdvanceClock | App.tsx:65-81 | from a normalised clock, a non-negative advance gives a normalised clock exactly that many minutes later; the day never goes back, and the weekday rolls once per day crossed, mod 7 |
| Clock.MoodDrift | App.tsx:83-89 | below 30 minutes mood is unchanged; otherwise it moves one point toward 50 (to 50 when within a point), never crossing it |
| Clock.AdvanceTime | App.tsx:65-100 | the new clock is `AdvanceClock` of the old one (so normalised, exactly that many minutes later, weekday rolled per day crossed), mood drifts, and nothing else in the state changes |
| ActionCatalog.MovesAlong | App.tsx:172-190 | one move per edge whose target is a known location: every move follows a listed edge with its cost, every edge to a known target yields its move, and with no unknown targets the moves are the edges in order |
| ActionCatalog.StudyActions | App.tsx:234-248 | one self-study action per subject, in subject order, and nothing else; distinct subjects give distinct actions |
| ActionCatalog.AllStudies | App.tsx:344-360 | the self-study actions of a place cover every subject, each listed once |
| ActionCatalog.DormActions | App.tsx:194-249 | the dorm offers sleep, the uniform exactly while it is not worn, and dorm study, none listed twice |
| ActionCatalog.TrainingActions | App.tsx:297-340 | the training field offers group training exactly in [14:00, 17:00), and speed training always, each listed once |
| ActionCatalog.Execute | App.tsx:117-379 | every action queues at least one log line, all stamped with the clock of the click; only listening and the three self-studies return a log field, and it is the old log |
| ActionCatalog.ExecuteFrame | App.tsx:117-379 | no action's update changes the clock, the mode, the lesson subject or the counter; only a move changes the place, to its target |
| ActionCatalog.MoveActions | App.tsx:171-190 | the moves out of a place are exactly the moves along its declared edges to known locations, with the edge's cost; an unknown place has none |
| ActionCatalog.LocationActions | App.tsx:192-383 | the location actions are exactly the actions of the current place and time window: in the dorm sleep, dorm study and the uniform unless worn; the shower; the burger; group training inside [840, 1020) and speed training; library study; classroom study below minute 540 or above 1020; no action is listed twice |
| ActionCatalog.AvailableActions | App.tsx:104-386 | in class mode the catalog is exactly [listen, talk, sleep]; otherwise an action is in it iff it is a move along an edge of the current place to a known place, or an action of the current place and time window |
| ActionCatalog.AvailableInClass | App.tsx:110-167 | in class mode the catalog is exactly [listen, talk, sleep], each costing 10, with no condition and no move |
| ActionCatalog.AvailableMoves | App.tsx:171-190 | outside class mode no lesson action is offered; every edge to a known place is in the catalog as a move, and every move in the catalog is unconditioned, costs the edge weight and follows such an edge |
| ActionCatalog.MovesAreAllEdges | App.tsx:172-189 | with the shipped graph the moves out of a known place are exactly its edges, in order |
| ActionCatalog.MovesAlongDistinct | App.tsx:172-190 | edges with distinct targets give moves with no repeats, so an edge to an unknown place drops out without another move taking its place twice |
| ActionCatalog.MovesAlongConcat | App.tsx:172-190 | the moves of two edge lists in a row are the moves of the first followed by those of the second, so the moves keep the edges' order and each edge contributes independently |
| ActionCatalog.AvailableActionsOrdered | App.tsx:104-386 | the catalog never lists an action twice; outside class mode at a known place it is one move per declared edge, in declaration order, followed by exactly the place's actions |
| ActionPanel.FilterAvailable | components/ActionPanel.tsx:15 | an action is kept iff it is in the list and has no condition or its condition holds; the result is a subsequence of the list, so never longer |
| ActionPanel.FilterIdempotent | components/ActionPanel.tsx:15 | filtering twice equals filtering once |
| ActionPanel.FilterKeepsPassing | components/ActionPanel.tsx:15 | a list whose actions all pass is kept whole |
| ActionPanel.UnconditionedAlwaysOffered | components/ActionPanel.tsx:15 | a catalog action without a condition is always shown |
| ActionPanel.OfferedInClass | components/ActionPanel.tsx:15 | in class mode the panel shows the three lesson actions unchanged |
| Engine.SleepCost | App.tsx:394-403 | from a normalised night-time clock (from 20:00, or before 05:00) the sleep cost is positive and under a day, and lands on minute 360 (06:00) of the next day when bedtime was from 20:00, of the same day otherwise |
| Engine.RealCost | App.tsx:394-403 | an action other than sleep takes its listed minutes (a move its edge's cost); sleep at night takes a positive time that ends at 06:00 |
| Engine.SleepWakesAtSix | App.tsx:396-403 | sleeping from 20:00 on, or before 05:00, takes a positive number of minutes and ends at 06:00. It is the next day, weekday rolled, iff bedtime was from 20:00 on |
| Engine.ClassTurnStep | App.tsx:415-433 | at turn 5 or later the lesson ends: free roam, counter 1, no subject, and a bell line is appended. Otherwise the counter moves on. Clock, place, stats, experience, money and uniform are untouched |
| Engine.Dispatch | App.tsx:390-434 | the new clock is `AdvanceClock` of the old one by the real cost, so a click advances a normalised clock by exactly the real cost and moves the player only for a move. In a lesson, turn 5 ends it and earlier turns step the counter. Outside a lesson the mode, counter and subject are kept. The log only grows |
| Engine.FindSlot | App.tsx:442 | `find` gives none iff no slot contains the minute; otherwise the first slot of the list that contains it, none before it containing the minute |
| Engine.ClassAt | App.tsx:441-442 | a lesson is found only Monday to Friday and only in a slot that contains the minute; on a weekday, a containing slot is always found |
| Engine.ClassAtUnique | constants.ts:117-122 | the slot found is the only slot containing the minute |
| Engine.ScheduleCheck | App.tsx:437-466 | only mode, subject, counter and log may change. In the classroom, outside class mode, during a slot, the lesson starts at turn 1 with the slot's subject, and the first new log line is an event entry announcing that subject, stamped with the current clock. Exactly five minutes into a slot, elsewhere, a lateness error is logged. At exactly 22:00 a curfew warning is logged. The log only grows, by exactly these lines |
| Engine.Step | App.tsx:390-466 | one click then the schedule effect: the place changes only for a move, the clock advances by the real cost, the log only grows |
| Invariants.InitialStateInv | App.tsx:31-41 | the initial state is well-formed, in free roam, in the dorm |
| Invariants.OfferedAllowed | App.tsx:104-386 | a shown action's condition holds, a shown move follows a declared edge, and lesson actions are shown exactly in class mode |
| Invariants.OfferedExecutable | App.tsx:118 | in a well-formed state every shown action can execute: listening always has a lesson subject |
| Invariants.AllowedCostPositive | App.tsx:395-403 | every shown action, sleep included, takes a positive number of minutes |
| Invariants.MergePreservesInv | App.tsx:406-409 | merging a shown action's update keeps the state well-formed |
| Invariants.MergeListen | App.tsx:117-131 | merging listening's whole-state update (experience up, energy floored at 0) keeps the state well-formed |
| Invariants.MergeChat | App.tsx:138-163 | merging the update of talking or dozing, whose stats are clamped to their bounds, keeps the state well-formed |
| Invariants.MergeMove | App.tsx:184-187 | merging a shown move keeps the state well-formed: the place it sets is a known location |
| Invariants.MergeRest | App.tsx:201-228 | merging the update of sleep or of the uniform keeps the state well-formed |
| Invariants.MergeDormStudy | App.tsx:239-245 | merging dorm study, shown only from 15 spirit, keeps the state well-formed, so spirit stays non-negative |
| Invariants.MergeLibraryStudy | App.tsx:350-357 | merging library study, shown only from 10 spirit, keeps the state well-formed |
| Invariants.MergeClassroomStudy | App.tsx:371-378 | merging classroom study, shown only from 10 spirit, keeps the state well-formed |
| Invariants.MergeShower | App.tsx:257-267 | merging the shower, shown only from 5 energy, keeps the state well-formed |
| Invariants.MergeLunch | App.tsx:278-292 | merging the burger keeps the state well-formed: it is paid for only with 50 in hand, so money stays non-negative |
| Invariants.MergeTraining | App.tsx:305-336 | merging either training, shown only from 30 or 15 energy, keeps the state well-formed |
| Invariants.AdvanceTimePreservesInv | App.tsx:65-100 | advancing the clock by a non-negative amount keeps the state well-formed |
| Invariants.ClassTurnStepPreservesInv | App.tsx:415-433 | stepping the lesson counter keeps the counter in 1..5 and a subject exactly in class mode |
| Invariants.DispatchPreservesInv | App.tsx:390-434 | a click on a shown action keeps the state well-formed |
| Invariants.MoodDriftInRange | App.tsx:86-89 | mood drift keeps mood within 0..100 |
| Invariants.ScheduleCheckPreservesInv | App.tsx:437-466 | the schedule effect keeps the state well-formed; a lesson always starts with a subject |
| Invariants.StepPreservesInv | App.tsx:390-466 | any shown button can be clicked. The click keeps the state well-formed: counter in 1..5, a subject exactly in class mode, event mode never entered, stats, experience and money in range. It strictly advances the clock |
| Invariants.RunPreservesInv | App.tsx:390-466 | every state reached by clicks from a well-formed state is well-formed, and the clock advances at least a minute per click |
| Effects.MoveChangesOnlyPlace | App.tsx:184-187 | a move sets the place, logs the trip and spends the edge's minutes; money, stats other than the mood drift, experience and the uniform are kept |
| Effects.EatLunchWithoutMoney | App.tsx:280-284 | below 50 money only an error line is logged, and the 20 minutes still pass |
| Effects.EatLunchPays | App.tsx:286-292 | with 50 in hand money drops by exactly 50 and energy rises by 30 up to the cap |
| Effects.SleepRestores | App.tsx:200-217 | sleep at night refills energy and spirit, heals 10 up to the cap, and wakes the player at 06:00 of the right day |
| Effects.GatedDrainKeepsEnergy | App.tsx:257-335 | the shower and the two trainings drain exactly 5, 30 and 15 energy, so when shown they never drive energy below zero |
| Effects.PlaceActionShown | App.tsx:192-383 | a location action is shown iff the player is outside class mode, at its place and time window, and its condition holds |
| Effects.DormStudyShownFromSpirit | App.tsx:234-239 | dorm study is shown iff in the dorm outside class mode with at least 15 spirit |
| Effects.ShowerShownFromEnergy | App.tsx:252-257 | the shower is shown iff in the bathroom outside class mode with at least 5 energy |
| Effects.LunchShownBelowFullEnergy | App.tsx:273-278 | the burger is shown iff in the cafeteria outside class mode with energy below its cap |
| Effects.GroupTrainingShownInWindow | App.tsx:299-305 | group training is shown iff on the training field outside class mode, between minute 840 and before 1020, with at least 30 energy |
| Effects.SpeedTrainingShownFromEnergy | App.tsx:323-328 | speed training is shown iff on the training field outside class mode with at least 15 energy |
| Effects.LibraryStudyShownFromSpirit | App.tsx:342-350 | library study is shown iff in the library outside class mode with at least 10 spirit |
| Effects.ClassroomStudyShownOutOfHours | App.tsx:363-371 | classroom study is shown iff in the classroom outside class mode, before minute 540 or after 1020, with at least 10 spirit |
| Effects.SleepShownOnlyAtNight | App.tsx:200 | sleep is shown iff the player is in the dorm outside class mode between 20:00 and 04:59 |
| Effects.StudyGainsExperience | App.tsx:241-377 | self-study adds 2 (dorm), 5 (library) or 4 (classroom) experience to the studied subject only, costs 10 spirit, adds 0, 1 or 0.5 intelligence, and drifts mood over its half hour; no other stat changes |
| Effects.ShowerRefreshes | App.tsx:257-267 | the shower lifts mood by 15 (capped at 100, then drifted) and health by 5 (capped), costs 5 energy, and logs one line |
| Effects.GroupTrainingGains | App.tsx:300-320 | group training adds 2 to speed, stamina, power and guts and 1 to intelligence, costs 30 energy and an hour |
| Effects.SpeedTrainingGains | App.tsx:323-337 | speed training adds 2 speed and costs 15 energy and half an hour |
| Effects.WearUniformSetsFlag | App.tsx:221-231 | putting on the uniform sets the flag, takes five minutes and changes no stat |
| Effects.TalkInClass | App.tsx:138-147 | chatting in class adds 3 mood (up to 100), takes 2 spirit (not below 0), and its line is kept |
| Effects.DozeInClass | App.tsx:154-163 | dozing in class restores 5 energy and 5 spirit, each up to its cap, and its line is kept |
| Effects.NarrationKeptUnlessWholeState | App.tsx:123-374 | outside a lesson, the log lines an action queues survive iff its update is partial; the whole-state updates (listening, the three self-studies) put the old log back |
| Effects.ListenInClass | App.tsx:117-131 | listening adds 5 experience (2 on a failed roll) to the lesson subject and drops energy by 5, not below zero; its own log lines are lost, and only the bell of turn 5 is logged |
| Effects.LessonDispatch | App.tsx:415-432 | a lesson action at turns 1-4 keeps the lesson and moves the counter on; at turn 5 it ends the lesson, with the bell as the last log line |
| Effects.LessonClick | App.tsx:415-452 | a lesson click at turns 1-4 keeps the lesson. At turn 5 the lesson ends and the counter returns to 1. The player stays in free roam unless the schedule effect at once starts the next lesson |
| Effects.LessonLastsFiveTurns | App.tsx:415-432 | a lesson at turn k stays on, with the same subject, through the next 5−k clicks, whichever lesson buttons are pressed, and reaches turn 5 |
| Effects.MathsAtNine | constants.ts:118 | in the classroom at 09:00 on a weekday, the schedule effect starts maths |
| Effects.NoLessonsAtWeekend | App.tsx:441 | on Saturday and Sunday the schedule effect never changes the mode, and only the curfew line can be logged |
| AcademicGrade.StudyAsWritten | App.tsx:243 | studying as written adds experience and keeps the stored grade |
| AcademicGrade.StoredLevelNeverChanges | App.tsx:124-375 | as written, no series of study sessions changes the stored grade |
| AcademicGrade.StoredLevelLagsExperience | components/CharacterSheet.tsx:94-95 | as written, 10 experience from the start still shows grade G, though the grade function gives F |
| AcademicGrade.StudyCorrected | utils.ts:34-37 | corrected, studying recomputes the grade from the new experience; a non-negative gain never lowers it |
| AcademicGrade.CorrectedLevelTracksExperience | utils.ts:34-37 | corrected, the grade always matches the experience and never drops under non-negative gains |
| AcademicGrade.SameExperience | App.tsx:124-375 | the correction changes only the grade: both readings accumulate the same experience |
| AcademicGrade.ClickNeverLowersLevel | utils.ts:34-37 | no click ever lowers a shown grade |
| AcademicGrade.ClickNeverLosesExperience | App.tsx:124-375 | no click takes experience away |
| AcademicGrade.StudyNeverLosesExperience | App.tsx:124-375 | listening and the self-studies never take experience away |
| AcademicGrade.PartialUpdateKeepsExperience | App.tsx:138-337 | actions returning a partial update leave experience untouched |

## Left out

- Rendering: every component except the condition filter, and the render section of App.tsx, are presentation. The grade colour, the status descriptions and the progress-bar percentage are presentation too.
- `randomChoice` and the random log ids are left out. The two random draws in a lesson are parameters (`Rolls`), not probabilities.
- React's update queue and effect scheduling are left out. Dispatch and the schedule effect are sequential pure steps, applied in the order the queued updates take effect.
- Display text is left out. Chinese labels and log texts and background images are opaque; a log line keeps its type tag, a message tag and its timestamp.
- In-place mutation through shallow copies is left out. The nested academics and attributes objects are mutated in place (App.tsx:124-125, 243-244, 354-356, 375-377). This includes the shared initial academics constant. These are modelled as functional updates with the same resulting values.
- The date text of `getGameDate` is left out. `Utils.GetGameDate` returns the year, month and day it renders.
- The stored `level` beside each subject's experience is left out of `GameState`. The model derives the grade from the experience when it is shown. The stored field, which starts at 'G' and never changes, appears only in `AcademicGrade`.
- Floating point is left out. Stats and experience are exact reals, so the 0.5 intelligence gain is exact.
- Clock.AdvanceClock: the contract covers normalised clocks and non-negative advances only. Negative advances, which the source's loops leave unnormalised, are covered only by `Clock.AdvanceClockMatchesLoops`.
- ActionCatalog.Execute: its contract covers only the log lines, which updates carry a log, and (through `ActionCatalog.ExecuteFrame`) that no update touches clock, mode or lesson. Each action's effect on stats, money, experience and the uniform is stated after dispatch in the `Effects` lemmas, one or two per action, and bounded in `Invariants`.
- Engine.Dispatch: its contract states clock, place, mode, counter and log. The effects on stats, money, experience and the uniform are stated per action in the `Effects` lemmas.
- Effects.MoveChangesOnlyPlace, Effects.EatLunchWithoutMoney, Effects.EatLunchPays, Effects.SleepRestores, Effects.StudyGainsExperience, Effects.ShowerRefreshes, Effects.GroupTrainingGains, Effects.SpeedTrainingGains, Effects.WearUniformSetsFlag: these are stated for free roam only, because the catalog offers these actions only outside lessons.
- Engine.Step: defined only for a shown button whose action can execute. `Invariants.StepPreservesInv` proves that every shown button qualifies in a well-formed state.

## Findings

| source | as written | input that shows it | evidently intended | confidence | as-written member | corrected member |
|---|---|---|---|---|---|---|
| App.tsx:124 | studying adds experience but never recomputes the stored `level`, which starts at 'G' (constants.ts:20); the character sheet shows the stored `level` (components/CharacterSheet.tsx:94-95), and `calculateLevel` is never called | study twice for 5 experience from the start: experience 10, shown grade G, while `calculateLevel(10)` is F | the shown grade is `calculateLevel(exp)` | not executed | AcademicGrade.StoredLevelLagsExperience | AcademicGrade.CorrectedLevelTracksExperience |

=== FILE: academic_grade.dfy ===
/** The academic grade shown on the character sheet. The state stores a
    grade beside each subject's experience, starting at `G`; nothing ever
    recomputes it, although a grade function exists. As written, the sheet
    therefore shows `G` however much is studied. The corrected reading
    derives the grade from the experience each time it is shown. */
module AcademicGrade {
  import opened Types
  import opened Utils
  import opened ActionCatalog
  import opened Engine

  /** One subject's entry as stored: experience and a stored grade. */
  datatype AcademicRecord = AcademicRecord(exp: real, level: Grade)

  /** Every subject's entry at the start of the game. */
  const InitialRecord := AcademicRecord(0.0, G)

  // ----- as written -----

  /** Studying as written: experience grows, the stored grade is kept. */
  function StudyAsWritten(r: AcademicRecord, gain: real): (r': AcademicRecord)
    ensures r'.exp == r.exp + gain && r'.level == r.level
  {
    r.(exp := r.exp + gain)
  }

  /** A series of study sessions as written. */
  function StudyAllAsWritten(r: AcademicRecord, gains: seq<real>): AcademicRecord
    decreases |gains|
  {
    if |gains| == 0 then r else StudyAllAsWritten(StudyAsWritten(r, gains[0]), gains[1..])
  }

  /** As written, no amount of study changes the stored grade: from the start
      of the game it stays `G`. */
  lemma {:induction false} StoredLevelNeverChanges(r: AcademicRecord, gains: seq<real>)
    ensures StudyAllAsWritten(r, gains).level == r.level
    decreases |gains|
  {
    if |gains| > 0 {
      StoredLevelNeverChanges(StudyAsWritten(r, gains[0]), gains[1..]);
    }
  }

  /** The discrepancy on a concrete input: ten points of study from the start
      reach the `F` threshold, yet the stored grade still reads `G`. */
  lemma StoredLevelLagsExperience()
    ensures var r := StudyAllAsWritten(InitialRecord, [5.0, 5.0]);
      r.exp == 10.0 && r.level == G && CalculateLevel(r.exp) == F
  {
    StoredLevelNeverChanges(InitialRecord, [5.0, 5.0]);
    assert StudyAllAsWritten(InitialRecord, [5.0, 5.0]) == AcademicRecord(10.0, G);
  }

  // ----- corrected -----

  /** A stored grade that agrees with its experience. */
  predicate Consistent(r: AcademicRecord) {
    r.level == CalculateLevel(r.exp)
  }

  /** Studying, corrected: the grade is recomputed from the new experience. */
  function StudyCorrected(r: AcademicRecord, gain: real): (r': AcademicRecord)
    ensures r'.exp == r.exp + gain && Consistent(r')
    ensures Consistent(r) && gain >= 0.0 ==> Rank(r'.level) >= Rank(r.level)
  {
    var r' := AcademicRecord(r.exp + gain, CalculateLevel(r.exp + gain));
    if gain >= 0.0 then CalculateLevelMonotone(r.exp, r.exp + gain); r' else r'
  }

  /** A series of study sessions, corrected. */
  function StudyAllCorrected(r: AcademicRecord, gains: seq<real>): AcademicRecord
    decreases |gains|
  {
    if |gains| == 0 then r else StudyAllCorrected(StudyCorrected(r, gains[0]), gains[1..])
  }

  /** Corrected, the grade always matches the experience and never drops
      while the gains are non-negative. */
  lemma {:induction false} CorrectedLevelTracksExperience(r: AcademicRecord, gains: seq<real>)
    requires Consistent(r)
    requires forall i | 0 <= i < |gains| :: gains[i] >= 0.0
    ensures Consistent(StudyAllCorrected(r, gains))
    ensures Rank(StudyAllCorrected(r, gains).level) >= Rank(r.level)
    decreases |gains|
  {
    if |gains| > 0 {
      CorrectedLevelTracksExperience(StudyCorrected(r, gains[0]), gains[1..]);
    }
  }

  /** The correction changes only the grade: both readings accumulate the
      same experience. */
  lemma {:induction false} SameExperience(r: AcademicRecord, c: AcademicRecord, gains: seq<real>)
    requires r.exp == c.exp
    ensures StudyAllCorrected(c, gains).exp == StudyAllAsWritten(r, gains).exp
    decreases |gains|
  {
    if |gains| > 0 {
      SameExperience(StudyAsWritten(r, gains[0]), StudyCorrected(c, gains[0]), gains[1..]);
    }
  }

  /** The grade the character sheet shows for `subj`, corrected: derived
      from the experience the engine keeps. */
  function DisplayedLevel(s: GameState, subj: Subject): Grade
    requires subj in s.academics
  {
    CalculateLevel(s.academics[subj])
  }

  /** In the corrected model a click never lowers a shown grade. */
  lemma ClickNeverLowersLevel(s: GameState, a: Action, rolls: Rolls, subj: Subject)
    requires Executable(a, s) && subj in s.academics
    ensures subj in Dispatch(s, a, rolls).academics
    ensures Rank(DisplayedLevel(Dispatch(s, a, rolls), subj)) >= Rank(DisplayedLevel(s, subj))
  {
    var r := Dispatch(s, a, rolls);
    ClickNeverLosesExperience(s, a, rolls, subj);
    CalculateLevelMonotone(s.academics[subj], r.academics[subj]);
  }

  /** No click takes experience away. */
  lemma ClickNeverLosesExperience(s: GameState, a: Action, rolls: Rolls, subj: Subject)
    requires Executable(a, s) && subj in s.academics
    ensures subj in Dispatch(s, a, rolls).academics
    ensures Dispatch(s, a, rolls).academics[subj] >= s.academics[subj]
  {
    if ReturnsWholeState(a) {
      StudyNeverLosesExperience(s, a, rolls, subj);
    } else {
      PartialUpdateKeepsExperience(s, a, rolls, subj);
    }
  }

  lemma StudyNeverLosesExperience(s: GameState, a: Action, rolls: Rolls, subj: Subject)
    requires Executable(a, s) && subj in s.academics && ReturnsWholeState(a)
    ensures subj in Dispatch(s, a, rolls).academics
    ensures Dispatch(s, a, rolls).academics[subj] >= s.academics[subj]
  {
    var (u, narration) := Execute(a, s, rolls);
    var merged := Merge(s.(logs := s.logs + narration), u);
    assert Dispatch(s, a, rolls).academics == merged.academics;
    assert subj in merged.academics && merged.academics[subj] >= s.academics[subj];
  }

  lemma PartialUpdateKeepsExperience(s: GameState, a: Action, rolls: Rolls, subj: Subject)
    requires Executable(a, s) && subj in s.academics && !ReturnsWholeState(a)
    ensures Dispatch(s, a, rolls).academics == s.academics
  {
  }
}

=== FILE: action_panel.dfy ===
/** The action panel's filter: an action is shown when it has no condition
    or its condition holds in the current state. */
module ActionPanel {
  import opened Wrappers
  import opened Types
  import opened ActionCatalog

  /** Whether the panel keeps `a` in state `s`. */
  predicate Passes(a: Action, s: GameState) {
    Gate(a).None? || Holds(Gate(a).value, s)
  }

  /** `xs` can be obtained from `ys` by deleting elements. */
  predicate IsSubsequence<T(==)>(xs: seq<T>, ys: seq<T>)
    decreases |ys|
  {
    if |xs| == 0 then true
    else if |ys| == 0 then false
    else if xs[0] == ys[0] then IsSubsequence(xs[1..], ys[1..])
    else IsSubsequence(xs, ys[1..])
  }

  /** `actions.filter(a => !a.condition || a.condition(state))`: exactly the
      passing actions, in their original order, so never more of them. */
  function FilterAvailable(actions: seq<Action>, s: GameState): (r: seq<Action>)
    ensures |r| <= |actions|
    ensures forall a :: a in r <==> a in actions && Passes(a, s)
    ensures IsSubsequence(r, actions)
  {
    if |actions| == 0 then []
    else
      var rest := FilterAvailable(actions[1..], s);
      ConsSubsequence(actions[0], rest, actions[1..]);
      SkipSubsequence(rest, actions[0], actions[1..]);
      assert actions == [actions[0]] + actions[1..];
      if Passes(actions[0], s) then [actions[0]] + rest else rest
  }

  lemma ConsSubsequence<T>(x: T, xs: seq<T>, ys: seq<T>)
    requires IsSubsequence(xs, ys)
    ensures IsSubsequence([x] + xs, [x] + ys)
  {
    assert ([x] + xs)[1..] == xs;
    assert ([x] + ys)[1..] == ys;
  }

  lemma {:induction false} SkipSubsequence<T>(xs: seq<T>, y: T, ys: seq<T>)
    requires IsSubsequence(xs, ys)
    ensures IsSubsequence(xs, [y] + ys)
    decreases |ys|, 1
  {
    assert ([y] + ys)[1..] == ys;
    if |xs| > 0 && xs[0] == y {
      // Keep `y` as the match for `xs[0]`: the rest of `xs` embeds in `ys`.
      DropHeadSubsequence(xs, ys);
    }
  }

  lemma {:induction false} DropHeadSubsequence<T>(xs: seq<T>, ys: seq<T>)
    requires |xs| > 0 && IsSubsequence(xs, ys)
    ensures IsSubsequence(xs[1..], ys)
    decreases |ys|, 0
  {
    if xs[0] == ys[0] {
      SkipSubsequence(xs[1..], ys[0], ys[1..]);
      assert [ys[0]] + ys[1..] == ys;
    } else {
      DropHeadSubsequence(xs, ys[1..]);
      SkipSubsequence(xs[1..], ys[0], ys[1..]);
      assert [ys[0]] + ys[1..] == ys;
    }
  }

  /** Filtering twice is filtering once. */
  lemma {:induction false} FilterIdempotent(actions: seq<Action>, s: GameState)
    ensures FilterAvailable(FilterAvailable(actions, s), s) == FilterAvailable(actions, s)
  {
    if |actions| > 0 {
      FilterIdempotent(actions[1..], s);
      var rest := FilterAvailable(actions[1..], s);
      if Passes(actions[0], s) {
        assert ([actions[0]] + rest)[1..] == rest;
      }
    }
  }

  /** A list in which every action passes is kept whole. */
  lemma {:induction false} FilterKeepsPassing(actions: seq<Action>, s: GameState)
    requires forall a | a in actions :: Passes(a, s)
    ensures FilterAvailable(actions, s) == actions
  {
    if |actions| > 0 {
      FilterKeepsPassing(actions[1..], s);
      assert [actions[0]] + actions[1..] == actions;
    }
  }

  /** The actions the panel shows for a state. */
  function Offered(s: GameState): seq<Action> {
    FilterAvailable(AvailableActions(s), s)
  }

  /** Unconditioned actions (moves, the uniform, the lesson actions) are
      always shown. */
  lemma UnconditionedAlwaysOffered(s: GameState, a: Action)
    requires a in AvailableActions(s) && Gate(a).None?
    ensures a in Offered(s)
  {
  }

  /** In class mode the panel shows the three lesson actions as they are. */
  lemma OfferedInClass(s: GameState)
    requires s.mode == Class
    ensures Offered(s) == ClassActions
  {
    FilterKeepsPassing(ClassActions, s);
  }
}

=== FILE: catalog.dfy ===
/** `getAvailableActions` and the actions' `condition`/`execute` closures,
    as a catalog of tagged actions and an interpreter over them. */
module ActionCatalog {
  import opened Wrappers
  import opened Types
  import opened Constants
  import opened Utils

  /** The outcomes of the two random draws in a class lesson: whether
      listening paid off (`Math.random() > 0.1`) and whether the teacher made
      eye contact (`Math.random() < 0.2`). */
  datatype Rolls = Rolls(listenSuccess: bool, eyeContact: bool)

  // ----- per-action constants -----

  /** The listed time cost (`costMinutes`) of an action. Sleep lists 0; its
      real cost is computed at dispatch. */
  function CostMinutes(a: Action): int {
    match a
    case ClassListen => 10
    case ClassTalk => 10
    case ClassSleep => 10
    case MoveTo(_, cost) => cost
    case Sleep => 0
    case WearUniform => 5
    case DormStudy(_) => 30
    case Shower => 30
    case EatLunch => 20
    case TrainGroup => 60
    case TrainSpeed => 30
    case LibraryStudy(_) => 30
    case ClassroomStudy(_) => 30
  }

  /** The `condition` an action carries: sleep only at night, dorm study
      from 15 spirit, other study from 10, a shower from 5 energy, a meal
      below full energy, group training from 30 energy and speed training
      from 15; moves, the uniform and the lesson actions carry none. */
  function Gate(a: Action): Option<Condition> {
    match a
    case Sleep => Some(NightTime)
    case DormStudy(_) => Some(SpiritAtLeast(15.0))
    case Shower => Some(EnergyAtLeast(5.0))
    case EatLunch => Some(EnergyBelowMax)
    case TrainGroup => Some(EnergyAtLeast(30.0))
    case TrainSpeed => Some(EnergyAtLeast(15.0))
    case LibraryStudy(_) => Some(SpiritAtLeast(10.0))
    case ClassroomStudy(_) => Some(SpiritAtLeast(10.0))
    case _ => None
  }

  /** Whether a gating condition holds in `s`. */
  predicate Holds(c: Condition, s: GameState) {
    match c
    case NightTime => s.time.hour >= 20 || s.time.hour < 5
    case SpiritAtLeast(n) => s.attributes.spirit >= n
    case EnergyAtLeast(n) => s.attributes.energy >= n
    case EnergyBelowMax => s.attributes.energy < s.attributes.maxEnergy
  }

  /** The lesson actions. */
  predicate IsLessonAction(a: Action) {
    a.ClassListen? || a.ClassTalk? || a.ClassSleep?
  }

  // ----- the catalog -----

  /** The three lesson actions offered in class mode. */
  const ClassActions: seq<Action> := [ClassListen, ClassTalk, ClassSleep]

  /** No element of `xs` is listed twice. */
  predicate Distinct<T(==)>(xs: seq<T>) {
    forall i, j | 0 <= i < j < |xs| :: xs[i] != xs[j]
  }

  /** Two duplicate-free lists with no common element concatenate to a
      duplicate-free list. */
  lemma DistinctConcat<T>(xs: seq<T>, ys: seq<T>)
    requires Distinct(xs) && Distinct(ys)
    requires forall x | x in xs :: x !in ys
    ensures Distinct(xs + ys)
  {
    forall i, j | 0 <= i < j < |xs + ys|
      ensures (xs + ys)[i] != (xs + ys)[j]
    {
      if j < |xs| {
        assert (xs + ys)[i] == xs[i] && (xs + ys)[j] == xs[j];
      } else if i < |xs| {
        assert (xs + ys)[i] == xs[i] && (xs + ys)[j] == ys[j - |xs|];
        assert xs[i] in xs && xs[i] !in ys;
      } else {
        assert (xs + ys)[i] == ys[i - |xs|] && (xs + ys)[j] == ys[j - |xs|];
      }
    }
  }

  /** No edge target is listed twice. */
  predicate TargetsDistinct(edges: seq<(LocationId, int)>) {
    forall i, j | 0 <= i < j < |edges| :: edges[i].0 != edges[j].0
  }

  /** One move per edge whose target is a known location, in edge order;
      an edge to an unknown location yields nothing. */
  function MovesAlong(edges: seq<(LocationId, int)>): (r: seq<Action>)
    ensures |r| <= |edges|
    ensures forall a | a in r :: a.MoveTo? && a.target in Locations && (a.target, a.cost) in edges
    ensures forall e | e in edges && e.0 in Locations :: MoveTo(e.0, e.1) in r
    ensures (forall e | e in edges :: e.0 in Locations) ==>
      |r| == |edges| && forall i | 0 <= i < |r| :: r[i] == MoveTo(edges[i].0, edges[i].1)
  {
    if |edges| == 0 then []
    else
      var rest := MovesAlong(edges[1..]);
      (if edges[0].0 in Locations then [MoveTo(edges[0].0, edges[0].1)] else []) + rest
  }

  /** Edges with distinct targets give distinct moves, so a dangling edge
      never lets another move be listed twice in its place. */
  lemma {:induction false} MovesAlongDistinct(edges: seq<(LocationId, int)>)
    requires TargetsDistinct(edges)
    ensures Distinct(MovesAlong(edges))
  {
    if |edges| > 0 {
      var rest := MovesAlong(edges[1..]);
      var head := if edges[0].0 in Locations then [MoveTo(edges[0].0, edges[0].1)] else [];
      assert MovesAlong(edges) == head + rest;
      assert TargetsDistinct(edges[1..]) by {
        forall i, j | 0 <= i < j < |edges[1..]| ensures edges[1..][i].0 != edges[1..][j].0 {
          assert edges[1..][i] == edges[i + 1] && edges[1..][j] == edges[j + 1];
        }
      }
      MovesAlongDistinct(edges[1..]);
      forall a | a in rest ensures a !in head {
        var k :| 0 <= k < |edges[1..]| && edges[1..][k] == (a.target, a.cost);
        assert edges[k + 1].0 != edges[0].0;
      }
      DistinctConcat(head, rest);
    }
  }

  /** The moves of two edge lists, one after the other, are the moves of
      each in turn: the catalog keeps the edges' declaration order. */
  lemma {:induction false} MovesAlongConcat(xs: seq<(LocationId, int)>, ys: seq<(LocationId, int)>)
    ensures MovesAlong(xs + ys) == MovesAlong(xs) + MovesAlong(ys)
  {
    if |xs| == 0 {
      assert xs + ys == ys;
    } else {
      assert (xs + ys)[1..] == xs[1..] + ys;
      MovesAlongConcat(xs[1..], ys);
    }
  }

  /** Moves out of `loc`: exactly one per declared edge to a known location,
      and none from an unknown location. */
  function MoveActions(loc: LocationId): (r: seq<Action>)
    ensures forall a :: a in r <==> a.MoveTo? && HasEdge(loc, a.target, a.cost) && a.target in Locations
  {
    if loc in Locations then
      MovesAlong(Locations[loc].connections)
    else []
  }

  /** Where a self-study action takes place. */
  datatype StudyPlace = AtDorm | AtLibrary | AtClassroom

  /** The self-study action for one subject at one place. */
  function StudyAction(place: StudyPlace, subj: Subject): Action {
    match place
    case AtDorm => DormStudy(subj)
    case AtLibrary => LibraryStudy(subj)
    case AtClassroom => ClassroomStudy(subj)
  }

  /** Whether `a` is a self-study action at `place`. */
  predicate StudiesAt(place: StudyPlace, a: Action) {
    match place
    case AtDorm => a.DormStudy?
    case AtLibrary => a.LibraryStudy?
    case AtClassroom => a.ClassroomStudy?
  }

  /** One self-study action per subject, in subject order: exactly the study
      actions at `place` for the listed subjects. */
  function StudyActions(place: StudyPlace, subjects: seq<Subject>): (r: seq<Action>)
    ensures |r| == |subjects|
    ensures forall i | 0 <= i < |r| :: r[i] == StudyAction(place, subjects[i])
    ensures forall a :: a in r <==> StudiesAt(place, a) && a.subject in subjects
    ensures Distinct(subjects) ==> Distinct(r)
  {
    var r := seq(|subjects|, i requires 0 <= i < |subjects| => StudyAction(place, subjects[i]));
    assert forall a | StudiesAt(place, a) && a.subject in subjects :: a == r[IndexOf(subjects, a.subject)];
    r
  }

  function IndexOf<T(==)>(xs: seq<T>, x: T): (i: nat)
    requires x in xs
    ensures i < |xs| && xs[i] == x
  {
    if xs[0] == x then 0 else 1 + IndexOf(xs[1..], x)
  }

  /** Self-study at `place` for every subject. */
  function AllStudies(place: StudyPlace): (r: seq<Action>)
    ensures forall a :: a in r <==> StudiesAt(place, a)
    ensures Distinct(r)
  {
    SubjectsComplete();
    StudyActions(place, AllSubjects)
  }

  /** Sleep, the uniform while not wearing it, and dorm self-study. */
  function DormActions(wearingUniform: bool): (r: seq<Action>)
    ensures forall a :: a in r <==> InDorm(wearingUniform, a)
    ensures Distinct(r)
  {
    var head := if wearingUniform then [Sleep] else [Sleep, WearUniform];
    var r := head + AllStudies(AtDorm);
    assert forall a :: a in r <==> a in head || a in AllStudies(AtDorm);
    DistinctConcat(head, AllStudies(AtDorm));
    r
  }

  predicate InDorm(wearingUniform: bool, a: Action) {
    match a
    case Sleep => true
    case WearUniform => !wearingUniform
    case DormStudy(_) => true
    case _ => false
  }

  /** Group training inside [14:00, 17:00), and speed training. */
  function TrainingActions(mins: int): (r: seq<Action>)
    ensures forall a :: a in r <==> (a == TrainGroup && 840 <= mins < 1020) || a == TrainSpeed
    ensures Distinct(r)
  {
    (if 840 <= mins < 1020 then [TrainGroup] else []) + [TrainSpeed]
  }

  /** Where each location action is offered, stated action by action: an
      order-free reference for the location blocks below. */
  predicate AtItsPlace(s: GameState, a: Action) {
    var mins := MinutesFromMidnight(s.time);
    match a
    case Sleep => s.location == "dorm"
    case WearUniform => s.location == "dorm" && !s.wearingUniform
    case DormStudy(_) => s.location == "dorm"
    case Shower => s.location == "bathroom"
    case EatLunch => s.location == "cafeteria"
    case TrainGroup => s.location == "training_field" && 840 <= mins < 1020
    case TrainSpeed => s.location == "training_field"
    case LibraryStudy(_) => s.location == "library"
    case ClassroomStudy(_) => s.location == "classroom" && (mins < 540 || mins > 1020)
    case _ => false
  }

  /** The actions specific to the current location, before condition
      filtering; group training only in [14:00, 17:00), classroom self-study
      only before 09:00 or after 17:00 (17:00 itself excluded). The source
      tests each location in a separate `if`; a state is at one location, so
      at most one applies. */
  function LocationActions(s: GameState): (r: seq<Action>)
    ensures forall a :: a in r <==> AtItsPlace(s, a)
    ensures Distinct(r)
  {
    var mins := MinutesFromMidnight(s.time);
    if s.location == "dorm" then DormActions(s.wearingUniform)
    else if s.location == "bathroom" then [Shower]
    else if s.location == "cafeteria" then [EatLunch]
    else if s.location == "training_field" then TrainingActions(mins)
    else if s.location == "library" then AllStudies(AtLibrary)
    else if s.location == "classroom" && (mins < 540 || mins > 1020) then AllStudies(AtClassroom)
    else []
  }

  /** The full catalog for a state, before condition filtering: the three
      lesson actions in class mode; otherwise the moves along the current
      location's edges to known locations, then the actions of the place. */
  function AvailableActions(s: GameState): (r: seq<Action>)
    ensures s.mode == Class ==> r == [ClassListen, ClassTalk, ClassSleep]
    ensures s.mode != Class ==> forall a :: a in r <==>
      (a.MoveTo? && HasEdge(s.location, a.target, a.cost) && a.target in Locations) || AtItsPlace(s, a)
  {
    if s.mode == Class then ClassActions else MoveActions(s.location) + LocationActions(s)
  }

  // ----- execute -----

  function Max(x: real, y: real): real { if x >= y then x else y }
  function Min(x: real, y: real): real { if x <= y then x else y }

  /** The subject an action studies or listens to, if any. */
  function StudiedSubject(a: Action, s: GameState): Option<Subject> {
    match a
    case ClassListen => s.currentClassSubject
    case DormStudy(subj) => Some(subj)
    case LibraryStudy(subj) => Some(subj)
    case ClassroomStudy(subj) => Some(subj)
    case _ => None
  }

  /** What `execute` needs of the state: listening needs a current subject
      (the source asserts it non-null), and every studied subject must have
      an academics entry. */
  predicate Executable(a: Action, s: GameState) {
    && (a == ClassListen ==> s.currentClassSubject.Some?)
    && (StudiedSubject(a, s).Some? ==> StudiedSubject(a, s).value in s.academics)
  }

  /** Actions whose `execute` returns the whole state spread, old log included. */
  predicate ReturnsWholeState(a: Action) {
    a.ClassListen? || a.DormStudy? || a.LibraryStudy? || a.ClassroomStudy?
  }

  function Entry(kind: LogType, msg: LogMsg, s: GameState): LogEntry {
    LogEntry(kind, msg, Timestamp(s.time))
  }

  /** `s` with `amount` more experience in `subj`. */
  function AddExp(s: GameState, subj: Subject, amount: real): GameState
    requires subj in s.academics
  {
    s.(academics := s.academics[subj := s.academics[subj] + amount])
  }

  /** An action's `execute`: the partial update it returns and the log lines it
      queues, each stamped with the current clock. Only the whole-state
      actions return a log field, and it is the log as it was. */
  function Execute(a: Action, s: GameState, rolls: Rolls): (r: (PartialUpdate, seq<LogEntry>))
    requires Executable(a, s)
    ensures |r.1| >= 1
    ensures forall e | e in r.1 :: e.timestamp == Timestamp(s.time)
    ensures r.0.logs.Some? <==> ReturnsWholeState(a)
    ensures r.0.logs.Some? ==> r.0.logs.value == s.logs
  {
    var at := s.attributes;
    match a
    case ClassListen =>
      var subj := s.currentClassSubject.value;
      var gain := if rolls.listenSuccess then 5.0 else 2.0;
      var s' := AddExp(s, subj, gain).(attributes := at.(energy := Max(0.0, at.energy - 5.0)));
      (Spread(s'),
       [Entry(Info, Listened(subj), s)] + (if rolls.eyeContact then [Entry(EventLog, EyeContact, s)] else []))
    case ClassTalk =>
      (NoUpdate.(attributes := Some(at.(mood := Min(100.0, at.mood + 3.0), spirit := Max(0.0, at.spirit - 2.0)))),
       [Entry(Info, Chatted, s)])
    case ClassSleep =>
      (NoUpdate.(attributes := Some(at.(energy := Min(at.maxEnergy, at.energy + 5.0),
                                        spirit := Min(at.maxSpirit, at.spirit + 5.0)))),
       [Entry(Warning, DozedInClass, s)])
    case MoveTo(target, _) =>
      (NoUpdate.(location := Some(target)), [Entry(Info, Travelled(target), s)])
    case Sleep =>
      (NoUpdate.(attributes := Some(at.(energy := at.maxEnergy, spirit := at.maxSpirit,
                                        health := Min(at.maxHealth, at.health + 10.0)))),
       [Entry(Success, WentToBed, s), Entry(EventLog, NextDay, s)])
    case WearUniform =>
      (NoUpdate.(wearingUniform := Some(true)), [Entry(Success, PutOnUniform, s)])
    case DormStudy(subj) =>
      var s' := AddExp(s, subj, 2.0).(attributes := at.(spirit := at.spirit - 10.0));
      (Spread(s'), [Entry(Info, DormStudied(subj), s)])
    case Shower =>
      (NoUpdate.(attributes := Some(at.(mood := Min(100.0, at.mood + 15.0),
                                        health := Min(at.maxHealth, at.health + 5.0),
                                        energy := at.energy - 5.0))),
       [Entry(Success, Showered, s)])
    case EatLunch =>
      if s.money < 50 then (NoUpdate, [Entry(Error, NoMoney, s)])
      else
        (NoUpdate.(money := Some(s.money - 50),
                   attributes := Some(at.(energy := Min(at.maxEnergy, at.energy + 30.0)))),
         [Entry(Success, AteBurger, s)])
    case TrainGroup =>
      (NoUpdate.(attributes := Some(at.(speed := at.speed + 2.0, stamina := at.stamina + 2.0,
                                        power := at.power + 2.0, guts := at.guts + 2.0,
                                        intelligence := at.intelligence + 1.0,
                                        energy := at.energy - 30.0))),
       [Entry(Success, GroupTrained, s)])
    case TrainSpeed =>
      (NoUpdate.(attributes := Some(at.(speed := at.speed + 2.0, energy := at.energy - 15.0))),
       [Entry(Success, SpeedTrained, s)])
    case LibraryStudy(subj) =>
      var s' := AddExp(s, subj, 5.0).(attributes := at.(intelligence := at.intelligence + 1.0,
                                                        spirit := at.spirit - 10.0));
      (Spread(s'), [Entry(Info, LibraryStudied(subj), s)])
    case ClassroomStudy(subj) =>
      var s' := AddExp(s, subj, 4.0).(attributes := at.(intelligence := at.intelligence + 0.5,
                                                        spirit := at.spirit - 10.0));
      (Spread(s'), [Entry(Info, ClassroomStudied(subj), s)])
  }

  /** No action's update touches the clock, the mode or the lesson; only a
      move changes the place. */
  lemma ExecuteFrame(a: Action, s: GameState, rolls: Rolls)
    requires Executable(a, s)
    ensures var u := Execute(a, s, rolls).0;
      && u.time.GetOr(s.time) == s.time && u.mode.GetOr(s.mode) == s.mode
      && u.classTurn.GetOr(s.classTurn) == s.classTurn
      && u.currentClassSubject.GetOr(s.currentClassSubject) == s.currentClassSubject
      && u.location.GetOr(s.location) == if a.MoveTo? then a.target else s.location
  {
    match a {
      case ClassListen =>
      case ClassTalk =>
      case ClassSleep =>
      case MoveTo(_, _) =>
      case Sleep =>
      case WearUniform =>
      case DormStudy(_) =>
      case Shower =>
      case EatLunch =>
      case TrainGroup =>
      case TrainSpeed =>
      case LibraryStudy(_) =>
      case ClassroomStudy(_) =>
    }
  }

  // ----- properties of the catalog -----

  /** In class mode the catalog is exactly listen, talk and sleep, ten
      minutes each, ungated, with no moves. */
  lemma AvailableInClass(s: GameState)
    requires s.mode == Class
    ensures AvailableActions(s) == [ClassListen, ClassTalk, ClassSleep]
    ensures forall a | a in AvailableActions(s) :: CostMinutes(a) == 10 && Gate(a).None? && !a.MoveTo?
  {
  }

  /** Outside class mode no lesson action is offered; every edge of the
      current location to a known location is offered as an ungated move
      costing the edge weight, and every move offered is such an edge. */
  lemma AvailableMoves(s: GameState)
    requires s.mode != Class
    ensures forall a | a in AvailableActions(s) :: !IsLessonAction(a)
    ensures forall t, c | HasEdge(s.location, t, c) && t in Locations :: MoveTo(t, c) in AvailableActions(s)
    ensures forall a | a in AvailableActions(s) && a.MoveTo? ::
      Gate(a).None? && CostMinutes(a) == a.cost && HasEdge(s.location, a.target, a.cost)
  {
  }

  /** With the shipped graph, the moves out of a known location are exactly
      its declared edges, in declaration order. */
  lemma MovesAreAllEdges(loc: LocationId)
    requires loc in Locations
    ensures |MoveActions(loc)| == |Locations[loc].connections|
    ensures forall i | 0 <= i < |MoveActions(loc)| ::
      MoveActions(loc)[i] == MoveTo(Locations[loc].connections[i].0, Locations[loc].connections[i].1)
  {
    LocationsWellFormed();
  }

  /** The catalog never lists an action twice. Outside class mode at a
      known place it is one move per declared edge, in declaration order,
      followed by the place's own actions. */
  lemma AvailableActionsOrdered(s: GameState)
    ensures Distinct(AvailableActions(s))
    ensures s.mode != Class && s.location in Locations ==>
      var es := Locations[s.location].connections;
      var r := AvailableActions(s);
      && |r| == |es| + |LocationActions(s)|
      && (forall i | 0 <= i < |es| :: r[i] == MoveTo(es[i].0, es[i].1))
      && r[|es|..] == LocationActions(s)
  {
    if s.mode != Class {
      var moves := MoveActions(s.location);
      if s.location in Locations {
        MovesAreAllEdges(s.location);
        LocationsTargetsDistinct();
        MovesAlongDistinct(Locations[s.location].connections);
      }
      assert forall a | a in LocationActions(s) :: !a.MoveTo?;
      DistinctConcat(moves, LocationActions(s));
    }
  }
}

=== FILE: clock.dfy ===
/** `advanceTime`: minute and hour carry, day and weekday roll-over, and the
    mood drift that rides along with every time advance. */
module Clock {
  import opened Types
  import opened Utils

  /** Minutes elapsed since the start of day 0. */
  function Elapsed(t: TimeState): int {
    t.day * 1440 + t.hour * 60 + t.minute
  }

  // ----- the source's loops, step by step -----

  /** `while (minute >= 60) { minute -= 60; hour += 1 }` */
  function CarryMinutesLoop(minute: int, hour: int): (int, int)
    decreases minute
  {
    if minute >= 60 then CarryMinutesLoop(minute - 60, hour + 1) else (minute, hour)
  }

  /** `while (hour >= 24) { hour -= 24; day += 1; weekday = (weekday + 1) % 7 }`,
      returning (hour, day, weekday). */
  function CarryHoursLoop(hour: int, day: int, weekday: int): (int, int, int)
    decreases hour
  {
    if hour >= 24 then CarryHoursLoop(hour - 24, day + 1, JsRem(weekday + 1, 7)) else (hour, day, weekday)
  }

  /** The clock after `minutes` minutes as the loops compute it. */
  function AdvanceClockByLoops(t: TimeState, minutes: int): TimeState {
    var (m, h) := CarryMinutesLoop(t.minute + minutes, t.hour);
    var (h', d, w) := CarryHoursLoop(h, t.day, t.weekday);
    TimeState(d, h', m, w)
  }

  // ----- closed form -----

  /** `k` day roll-overs of the weekday, each `(w + 1) % 7`. */
  function RollWeekday(w: int, k: nat): int
    decreases k
  {
    if k == 0 then w else RollWeekday(JsRem(w + 1, 7), k - 1)
  }

  /** From a valid weekday, `k` roll-overs land on `(w + k) mod 7`. */
  lemma {:induction false} RollWeekdayMod(w: int, k: nat)
    ensures 0 <= w < 7 ==> RollWeekday(w, k) == (w + k) % 7
    decreases k
  {
    if 0 <= w < 7 && k > 0 {
      var w' := JsRem(w + 1, 7);
      RollWeekdayMod(w', k - 1);
      if w == 6 {
        assert w' == 0;
        ModPlusWeek(k - 1);
      } else {
        assert w' == w + 1;
      }
    }
  }

  lemma ModPlusWeek(x: nat)
    ensures (x + 7) % 7 == x % 7
  {
    var q, r := x / 7, x % 7;
    assert x + 7 == (q + 1) * 7 + r;
  }

  /** The clock after `minutes` more minutes. The carries happen only for
      overflow (a negative advance is left un-normalised, as in the source).
      From a normalised clock and a non-negative advance the result is
      normalised, exactly `minutes` later, and its weekday has rolled once per
      day crossed. */
  function AdvanceClock(t: TimeState, minutes: int): (r: TimeState)
    ensures Normalised(t) && minutes >= 0 ==>
      && Normalised(r)
      && Elapsed(r) == Elapsed(t) + minutes
      && r.day >= t.day
      && r.weekday == (t.weekday + (r.day - t.day)) % 7
  {
    var m := t.minute + minutes;
    var minute := if m >= 60 then m % 60 else m;
    var hour := if m >= 60 then t.hour + m / 60 else t.hour;
    if hour >= 24 then
      RollWeekdayMod(t.weekday, hour / 24);
      TimeState(t.day + hour / 24, hour % 24, minute, RollWeekday(t.weekday, hour / 24))
    else
      TimeState(t.day, hour, minute, t.weekday)
  }

  lemma {:induction false} CarryMinutesClosedForm(minute: int, hour: int)
    ensures CarryMinutesLoop(minute, hour) ==
      if minute >= 60 then (minute % 60, hour + minute / 60) else (minute, hour)
    decreases minute
  {
    if minute >= 60 {
      CarryMinutesClosedForm(minute - 60, hour + 1);
      if minute - 60 >= 60 {
        assert (minute - 60) % 60 == minute % 60;
        assert hour + 1 + (minute - 60) / 60 == hour + minute / 60;
      }
    }
  }

  lemma {:induction false} CarryHoursClosedForm(hour: int, day: int, weekday: int)
    ensures CarryHoursLoop(hour, day, weekday) ==
      if hour >= 24 then (hour % 24, day + hour / 24, RollWeekday(weekday, hour / 24)) else (hour, day, weekday)
    decreases hour
  {
    if hour >= 24 {
      var w' := JsRem(weekday + 1, 7);
      CarryHoursClosedForm(hour - 24, day + 1, w');
      assert RollWeekday(weekday, hour / 24) == RollWeekday(w', hour / 24 - 1);
      if hour - 24 >= 24 {
        assert (hour - 24) % 24 == hour % 24;
        assert (hour - 24) / 24 == hour / 24 - 1;
      }
    }
  }

  /** The closed form computes exactly what the source's loops compute, for
      every clock and every advance. */
  lemma AdvanceClockMatchesLoops(t: TimeState, minutes: int)
    ensures AdvanceClock(t, minutes) == AdvanceClockByLoops(t, minutes)
  {
    var m := t.minute + minutes;
    CarryMinutesClosedForm(m, t.hour);
    var (_, h) := CarryMinutesLoop(m, t.hour);
    CarryHoursClosedForm(h, t.day, t.weekday);
  }

  // ----- mood drift -----

  function Abs(x: real): real {
    if x < 0.0 then -x else x
  }

  /** Mood after an advance of `minutes`: unchanged for advances under 30
      minutes; otherwise one point closer to 50 (or exactly 50 when it was
      within a point), never crossing to the other side. */
  function MoodDrift(mood: real, minutes: int): (r: real)
    ensures minutes < 30 ==> r == mood
    ensures minutes >= 30 ==>
      && (mood >= 50.0 ==> r >= 50.0)
      && (mood <= 50.0 ==> r <= 50.0)
      && Abs(r - 50.0) == (if Abs(mood - 50.0) >= 1.0 then Abs(mood - 50.0) - 1.0 else 0.0)
  {
    if minutes >= 30 then
      var lowered := if mood > 50.0 then (if mood - 1.0 > 50.0 then mood - 1.0 else 50.0) else mood;
      if lowered < 50.0 then (if lowered + 1.0 < 50.0 then lowered + 1.0 else 50.0) else lowered
    else mood
  }

  /** `advanceTime(minutes)` applied to a state: the clock advances, mood
      drifts, and nothing else in the state changes. */
  function AdvanceTime(s: GameState, minutes: int): (r: GameState)
    ensures Normalised(s.time) && minutes >= 0 ==>
      Normalised(r.time) && Elapsed(r.time) == Elapsed(s.time) + minutes
    ensures r.time == AdvanceClock(s.time, minutes)
    ensures r.attributes.mood == MoodDrift(s.attributes.mood, minutes)
    ensures r == s.(time := r.time, attributes := s.attributes.(mood := r.attributes.mood))
  {
    s.(time := AdvanceClock(s.time, minutes),
       attributes := s.attributes.(mood := MoodDrift(s.attributes.mood, minutes)))
  }
}

=== FILE: constants.dfy ===
/** Static configuration: starting stats, the location graph, grade
    thresholds and the daily timetable. */
module Constants {
  import opened Types

  const InitialStats := Attributes(
    100.0, 100.0,   // energy, maxEnergy
    100.0, 100.0,   // spirit, maxSpirit
    100.0, 100.0,   // health, maxHealth
    80.0,           // mood
    100.0, 100.0, 100.0, 100.0, 100.0)  // speed, stamina, power, guts, intelligence

  /** Every subject starts with no experience. */
  const InitialAcademics: Academics := map s | s in AllSubjects :: 0.0

  /** A location and its outgoing edges, in declaration order, each edge a
      target id and a travel cost in minutes. */
  datatype LocationData = LocationData(id: LocationId, name: string, connections: seq<(LocationId, int)>)

  const Locations: map<LocationId, LocationData> := map[
    "dorm" := LocationData("dorm", "宿舍",
      [("school_gate", 5), ("bathroom", 1)]),
    "bathroom" := LocationData("bathroom", "浴室",
      [("dorm", 1)]),
    "school_gate" := LocationData("school_gate", "学园正门",
      [("dorm", 5), ("classroom", 5), ("training_field", 5), ("cafeteria", 5), ("library", 5)]),
    "classroom" := LocationData("classroom", "教室",
      [("school_gate", 5), ("cafeteria", 2), ("library", 3), ("training_field", 5)]),
    "cafeteria" := LocationData("cafeteria", "餐厅",
      [("school_gate", 5), ("classroom", 2), ("library", 3), ("training_field", 5)]),
    "library" := LocationData("library", "图书馆",
      [("school_gate", 5), ("classroom", 3), ("cafeteria", 3)]),
    "training_field" := LocationData("training_field", "训练场",
      [("school_gate", 5), ("classroom", 5), ("cafeteria", 5)])
  ]

  datatype Threshold = Threshold(level: Grade, exp: real)

  /** Grade thresholds, best grade first. */
  const LevelThresholds: seq<Threshold> := [
    Threshold(S, 320.0), Threshold(A, 160.0), Threshold(B, 80.0), Threshold(C, 60.0),
    Threshold(D, 40.0), Threshold(E, 20.0), Threshold(F, 10.0), Threshold(G, 0.0)
  ]

  /** A timetable slot: minutes of the day in [start, end), and its subject. */
  datatype ScheduleEntry = ScheduleEntry(start: int, end: int, subject: Subject)

  const DailySchedule: seq<ScheduleEntry> := [
    ScheduleEntry(540, 590, Math),      // 09:00 - 09:50
    ScheduleEntry(600, 650, History),   // 10:00 - 10:50
    ScheduleEntry(660, 710, Biology),   // 11:00 - 11:50
    ScheduleEntry(720, 770, Music)      // 12:00 - 12:50
  ]

  // ----- properties of the graph -----

  /** An edge `from -> to` of cost `cost` is declared. */
  predicate HasEdge(from: LocationId, to: LocationId, cost: int) {
    from in Locations && (to, cost) in Locations[from].connections
  }

  /** Each entry is stored under its own id, every edge target is a known
      location, costs are positive and there are no self-edges. */
  predicate GraphWellFormed() {
    && (forall k | k in Locations :: Locations[k].id == k)
    && (forall k, i | k in Locations && 0 <= i < |Locations[k].connections| ::
          && Locations[k].connections[i].0 in Locations
          && Locations[k].connections[i].0 != k
          && Locations[k].connections[i].1 > 0)
  }

  lemma LocationsWellFormed()
    ensures GraphWellFormed()
    ensures forall from, to, cost | HasEdge(from, to, cost) :: to in Locations && cost > 0 && to != from
  {
  }

  /** An edge leads to a known location and takes time. */
  lemma EdgeTargetKnown(from: LocationId, to: LocationId, cost: int)
    requires HasEdge(from, to, cost)
    ensures to in Locations && cost > 0
  {
    LocationsWellFormed();
  }

  /** Every edge is matched by an edge back with the same cost. */
  lemma LocationsSymmetric()
    ensures forall from, to, cost | HasEdge(from, to, cost) :: HasEdge(to, from, cost)
  {
  }

  /** No location lists the same target twice, so a target determines its cost. */
  lemma LocationsTargetsDistinct()
    ensures forall k, i, j | k in Locations && 0 <= i < j < |Locations[k].connections| ::
      Locations[k].connections[i].0 != Locations[k].connections[j].0
  {
  }

  // ----- properties of the thresholds and the timetable -----

  /** Thresholds are strictly descending and the last one is 0, so every
      non-negative experience meets at least one. */
  lemma ThresholdsDescending()
    ensures forall i, j | 0 <= i < j < |LevelThresholds| :: LevelThresholds[i].exp > LevelThresholds[j].exp
    ensures LevelThresholds[|LevelThresholds| - 1].exp == 0.0
  {
  }

  /** Slots are non-empty, 50 minutes long, sorted and non-overlapping. */
  lemma ScheduleWellFormed()
    ensures forall i | 0 <= i < |DailySchedule| ::
      DailySchedule[i].start < DailySchedule[i].end && DailySchedule[i].end - DailySchedule[i].start == 50
    ensures forall i, j | 0 <= i < j < |DailySchedule| :: DailySchedule[i].end <= DailySchedule[j].start
  {
  }

  /** Survival stats start at their caps and mood starts at 80. */
  lemma InitialStatsAtCaps()
    ensures InitialStats.energy == InitialStats.maxEnergy
    ensures InitialStats.spirit == InitialStats.maxSpirit
    ensures InitialStats.health == InitialStats.maxHealth
    ensures InitialStats.mood == 80.0 && 0.0 <= InitialStats.mood <= 100.0
  {
  }

  /** The subject enumeration has eight distinct members, and the initial
      academics are keyed by exactly those, each at zero. */
  lemma SubjectsComplete()
    ensures |AllSubjects| == 8
    ensures forall s: Subject :: s in AllSubjects
    ensures forall i, j | 0 <= i < j < |AllSubjects| :: AllSubjects[i] != AllSubjects[j]
    ensures forall s: Subject :: s in InitialAcademics && InitialAcademics[s] == 0.0
  {
    forall s: Subject ensures s in AllSubjects {
      match s
      case Chinese => assert AllSubjects[0] == s;
      case History => assert AllSubjects[1] == s;
      case Math => assert AllSubjects[2] == s;
      case Biology => assert AllSubjects[3] == s;
      case Music => assert AllSubjects[4] == s;
      case Art => assert AllSubjects[5] == s;
      case Maintenance => assert AllSubjects[6] == s;
      case HomeEc => assert AllSubjects[7] == s;
    }
  }
}

=== FILE: effects.dfy ===
/** What individual clicks do to the state, and how a lesson runs its
    course. */
module Effects {
  import opened Wrappers
  import opened Types
  import opened Constants
  import opened Utils
  import opened Clock
  import opened ActionCatalog
  import opened ActionPanel
  import opened Engine
  import opened Invariants

  // ----- single clicks outside class mode -----

  /** A move changes the place, logs the trip and spends the edge's minutes;
      money, stats (but for mood drift), experience and uniform stay. */
  lemma MoveChangesOnlyPlace(s: GameState, target: LocationId, cost: int, rolls: Rolls)
    requires s.mode == FreeRoam
    ensures var r := Dispatch(s, MoveTo(target, cost), rolls);
      && r.location == target
      && r.time == AdvanceClock(s.time, cost)
      && r.attributes == s.attributes.(mood := MoodDrift(s.attributes.mood, cost))
      && r.academics == s.academics && r.money == s.money && r.wearingUniform == s.wearingUniform
      && r.logs == s.logs + [LogEntry(Info, Travelled(target), Timestamp(s.time))]
  {
  }

  /** Without 50 in hand the burger is refused: only an error line is
      logged, yet the 20 minutes still pass. */
  lemma EatLunchWithoutMoney(s: GameState, rolls: Rolls)
    requires s.mode == FreeRoam && s.money < 50
    ensures var r := Dispatch(s, EatLunch, rolls);
      && r.money == s.money
      && r.attributes == s.attributes.(mood := MoodDrift(s.attributes.mood, 20))
      && r.time == AdvanceClock(s.time, 20)
      && r.location == s.location && r.academics == s.academics
      && r.logs == s.logs + [LogEntry(Error, NoMoney, Timestamp(s.time))]
  {
  }

  /** With 50 in hand the burger costs exactly 50 and restores up to 30
      energy, never past the cap. */
  lemma EatLunchPays(s: GameState, rolls: Rolls)
    requires s.mode == FreeRoam && s.money >= 50
    ensures var r := Dispatch(s, EatLunch, rolls);
      && r.money == s.money - 50
      && r.attributes.energy == Min(s.attributes.maxEnergy, s.attributes.energy + 30.0)
      && r.logs == s.logs + [LogEntry(Success, AteBurger, Timestamp(s.time))]
  {
  }

  /** Sleeping at night refills energy and spirit, heals 10 up to the cap
      and wakes the player at 06:00. */
  lemma SleepRestores(s: GameState, rolls: Rolls)
    requires s.mode == FreeRoam && Normalised(s.time) && Holds(NightTime, s)
    ensures var r := Dispatch(s, Sleep, rolls);
      && r.attributes.energy == s.attributes.maxEnergy
      && r.attributes.spirit == s.attributes.maxSpirit
      && r.attributes.health == Min(s.attributes.maxHealth, s.attributes.health + 10.0)
      && r.time.hour == 6 && r.time.minute == 0
      && r.time.day == s.time.day + (if s.time.hour >= 20 then 1 else 0)
  {
    SleepWakesAtSix(s.time);
  }

  /** Energy a gated action drains. */
  function Drain(a: Action): real {
    match a
    case Shower => 5.0
    case TrainGroup => 30.0
    case TrainSpeed => 15.0
    case _ => 0.0
  }

  /** The shower and the two trainings drain exactly the energy their
      condition demands, so a shown one never drives energy below zero. */
  lemma GatedDrainKeepsEnergy(s: GameState, a: Action, rolls: Rolls)
    requires s.mode == FreeRoam && (a.Shower? || a.TrainGroup? || a.TrainSpeed?)
    requires Passes(a, s)
    ensures Dispatch(s, a, rolls).attributes.energy == s.attributes.energy - Drain(a)
    ensures Dispatch(s, a, rolls).attributes.energy >= 0.0
  {
  }

  /** Sleep is shown exactly in the dorm outside class mode from 20:00 to
      04:59. */
  lemma SleepShownOnlyAtNight(s: GameState)
    ensures Sleep in Offered(s) <==>
      s.mode != Class && s.location == "dorm" && (s.time.hour >= 20 || s.time.hour < 5)
  {
  }

  /** A location action is shown exactly when the player is outside class
      mode at its place (and time window) and its condition holds. */
  lemma PlaceActionShown(s: GameState, a: Action)
    requires !IsLessonAction(a) && !a.MoveTo?
    ensures a in Offered(s) <==> s.mode != Class && AtItsPlace(s, a) && Passes(a, s)
  {
  }

  /** Dorm study of any subject is shown exactly in the dorm outside class
      mode from 15 spirit. */
  lemma DormStudyShownFromSpirit(s: GameState, subj: Subject)
    ensures DormStudy(subj) in Offered(s) <==>
      s.mode != Class && s.location == "dorm" && s.attributes.spirit >= 15.0
  {
    PlaceActionShown(s, DormStudy(subj));
    assert AtItsPlace(s, DormStudy(subj)) <==> s.location == "dorm";
    assert Passes(DormStudy(subj), s) <==> s.attributes.spirit >= 15.0;
  }

  /** The shower is shown exactly in the bathroom outside class mode from 5
      energy. */
  lemma ShowerShownFromEnergy(s: GameState)
    ensures Shower in Offered(s) <==>
      s.mode != Class && s.location == "bathroom" && s.attributes.energy >= 5.0
  {
    PlaceActionShown(s, Shower);
    assert AtItsPlace(s, Shower) <==> s.location == "bathroom";
    assert Passes(Shower, s) <==> s.attributes.energy >= 5.0;
  }

  /** The burger is shown exactly in the cafeteria outside class mode while
      energy is below its cap; money is checked only when it is eaten. */
  lemma LunchShownBelowFullEnergy(s: GameState)
    ensures EatLunch in Offered(s) <==>
      s.mode != Class && s.location == "cafeteria" && s.attributes.energy < s.attributes.maxEnergy
  {
    PlaceActionShown(s, EatLunch);
    assert AtItsPlace(s, EatLunch) <==> s.location == "cafeteria";
    assert Passes(EatLunch, s) <==> s.attributes.energy < s.attributes.maxEnergy;
  }

  /** Group training is shown exactly on the training field outside class
      mode, from 14:00 until before 17:00, with at least 30 energy. */
  lemma GroupTrainingShownInWindow(s: GameState)
    ensures TrainGroup in Offered(s) <==>
      && s.mode != Class && s.location == "training_field"
      && 840 <= MinutesFromMidnight(s.time) < 1020 && s.attributes.energy >= 30.0
  {
    PlaceActionShown(s, TrainGroup);
    assert AtItsPlace(s, TrainGroup) <==> s.location == "training_field" && 840 <= MinutesFromMidnight(s.time) < 1020;
    assert Passes(TrainGroup, s) <==> s.attributes.energy >= 30.0;
  }

  /** Speed training is shown exactly on the training field outside class
      mode with at least 15 energy, at any hour. */
  lemma SpeedTrainingShownFromEnergy(s: GameState)
    ensures TrainSpeed in Offered(s) <==>
      s.mode != Class && s.location == "training_field" && s.attributes.energy >= 15.0
  {
    PlaceActionShown(s, TrainSpeed);
    assert AtItsPlace(s, TrainSpeed) <==> s.location == "training_field";
    assert Passes(TrainSpeed, s) <==> s.attributes.energy >= 15.0;
  }

  /** Library study of any subject is shown exactly in the library outside
      class mode from 10 spirit. */
  lemma LibraryStudyShownFromSpirit(s: GameState, subj: Subject)
    ensures LibraryStudy(subj) in Offered(s) <==>
      s.mode != Class && s.location == "library" && s.attributes.spirit >= 10.0
  {
    PlaceActionShown(s, LibraryStudy(subj));
    assert AtItsPlace(s, LibraryStudy(subj)) <==> s.location == "library";
    assert Passes(LibraryStudy(subj), s) <==> s.attributes.spirit >= 10.0;
  }

  /** Classroom study of any subject is shown exactly in the classroom
      outside class mode, before 09:00 or after 17:00, from 10 spirit. */
  lemma ClassroomStudyShownOutOfHours(s: GameState, subj: Subject)
    ensures ClassroomStudy(subj) in Offered(s) <==>
      && s.mode != Class && s.location == "classroom"
      && (MinutesFromMidnight(s.time) < 540 || MinutesFromMidnight(s.time) > 1020)
      && s.attributes.spirit >= 10.0
  {
    PlaceActionShown(s, ClassroomStudy(subj));
    assert AtItsPlace(s, ClassroomStudy(subj)) <==> s.location == "classroom" && (MinutesFromMidnight(s.time) < 540 || MinutesFromMidnight(s.time) > 1020);
    assert Passes(ClassroomStudy(subj), s) <==> s.attributes.spirit >= 10.0;
  }

  /** Experience a self-study action earns. */
  function StudyGain(a: Action): real {
    match a
    case DormStudy(_) => 2.0
    case LibraryStudy(_) => 5.0
    case ClassroomStudy(_) => 4.0
    case _ => 0.0
  }

  /** Intelligence a self-study action earns. */
  function StudyInsight(a: Action): real {
    match a
    case LibraryStudy(_) => 1.0
    case ClassroomStudy(_) => 0.5
    case _ => 0.0
  }

  /** Self-study raises the studied subject's experience by the place's gain,
      leaves every other subject alone, costs 10 spirit and, in the library
      and the classroom, adds intelligence; the half hour drifts mood. */
  lemma StudyGainsExperience(s: GameState, a: Action, rolls: Rolls)
    requires s.mode == FreeRoam && (a.DormStudy? || a.LibraryStudy? || a.ClassroomStudy?)
    requires a.subject in s.academics
    ensures var r := Dispatch(s, a, rolls);
      var at := s.attributes;
      && r.academics == s.academics[a.subject := s.academics[a.subject] + StudyGain(a)]
      && r.attributes == at.(spirit := at.spirit - 10.0,
                             intelligence := at.intelligence + StudyInsight(a),
                             mood := MoodDrift(at.mood, 30))
      && r.location == s.location && r.money == s.money
  {
  }

  /** The shower lifts mood by 15 and health by 5, each up to its cap, and
      costs 5 energy; the half hour then drifts mood. */
  lemma ShowerRefreshes(s: GameState, rolls: Rolls)
    requires s.mode == FreeRoam
    ensures var r := Dispatch(s, Shower, rolls);
      var at := s.attributes;
      && r.attributes == at.(mood := MoodDrift(Min(100.0, at.mood + 15.0), 30),
                             health := Min(at.maxHealth, at.health + 5.0),
                             energy := at.energy - 5.0)
      && r.academics == s.academics && r.money == s.money && r.location == s.location
      && r.logs == s.logs + [LogEntry(Success, Showered, Timestamp(s.time))]
  {
  }

  /** Group training raises speed, stamina, power and guts by 2 and
      intelligence by 1, for 30 energy and an hour. */
  lemma GroupTrainingGains(s: GameState, rolls: Rolls)
    requires s.mode == FreeRoam
    ensures var r := Dispatch(s, TrainGroup, rolls);
      var at := s.attributes;
      && r.attributes == at.(speed := at.speed + 2.0, stamina := at.stamina + 2.0,
                             power := at.power + 2.0, guts := at.guts + 2.0,
                             intelligence := at.intelligence + 1.0,
                             energy := at.energy - 30.0, mood := MoodDrift(at.mood, 60))
      && r.academics == s.academics && r.money == s.money
      && r.time == AdvanceClock(s.time, 60)
  {
  }

  /** Speed training raises speed by 2 for 15 energy and half an hour. */
  lemma SpeedTrainingGains(s: GameState, rolls: Rolls)
    requires s.mode == FreeRoam
    ensures var r := Dispatch(s, TrainSpeed, rolls);
      var at := s.attributes;
      && r.attributes == at.(speed := at.speed + 2.0, energy := at.energy - 15.0, mood := MoodDrift(at.mood, 30))
      && r.academics == s.academics && r.money == s.money
      && r.time == AdvanceClock(s.time, 30)
  {
  }

  /** Putting on the uniform sets the flag and takes five minutes, too short
      to drift mood; nothing else changes. */
  lemma WearUniformSetsFlag(s: GameState, rolls: Rolls)
    requires s.mode == FreeRoam
    ensures var r := Dispatch(s, WearUniform, rolls);
      && r.wearingUniform
      && r.attributes == s.attributes && r.academics == s.academics && r.money == s.money
      && r.location == s.location && r.time == AdvanceClock(s.time, 5)
      && r.logs == s.logs + [LogEntry(Success, PutOnUniform, Timestamp(s.time))]
  {
  }

  // ----- the lost narration -----

  /** Outside class mode, the log lines an action queues survive exactly
      when its update is partial: the actions that return the whole state
      write the old log back over them. */
  lemma NarrationKeptUnlessWholeState(s: GameState, a: Action, rolls: Rolls)
    requires s.mode != Class && Executable(a, s)
    ensures ReturnsWholeState(a) ==> Dispatch(s, a, rolls).logs == s.logs
    ensures !ReturnsWholeState(a) ==> Dispatch(s, a, rolls).logs == s.logs + Execute(a, s, rolls).1
    ensures Dispatch(s, a, rolls).logs == s.logs <==> ReturnsWholeState(a)
  {
  }

  /** Listening in class: the lesson subject gains 5 experience (2 on a
      failed roll), energy drops by 5 but not below zero, and the lines
      logged for it are lost; only the bell of the fifth turn is logged. */
  lemma ListenInClass(s: GameState, rolls: Rolls)
    requires s.mode == Class && s.currentClassSubject.Some? && s.currentClassSubject.value in s.academics
    ensures var r := Dispatch(s, ClassListen, rolls);
      var subj := s.currentClassSubject.value;
      && r.academics == s.academics[subj := s.academics[subj] + (if rolls.listenSuccess then 5.0 else 2.0)]
      && r.attributes.energy == Max(0.0, s.attributes.energy - 5.0)
      && r.logs == s.logs + (if s.classTurn >= 5 then [LogEntry(EventLog, ClassBell, Timestamp(r.time))] else [])
  {
  }

  /** Chatting in class lifts mood by 3 (up to 100) and costs 2 spirit (not
      below zero). Ten minutes do not drift mood, and the chat line is kept;
      the bell follows on the fifth turn. */
  lemma TalkInClass(s: GameState, rolls: Rolls)
    requires s.mode == Class
    ensures var r := Dispatch(s, ClassTalk, rolls);
      var at := s.attributes;
      && r.attributes == at.(mood := Min(100.0, at.mood + 3.0), spirit := Max(0.0, at.spirit - 2.0))
      && r.academics == s.academics
      && r.logs[..|s.logs| + 1] == s.logs + [LogEntry(Info, Chatted, Timestamp(s.time))]
  {
  }

  /** Dozing in class restores 5 energy and 5 spirit, each up to its cap. */
  lemma DozeInClass(s: GameState, rolls: Rolls)
    requires s.mode == Class
    ensures var r := Dispatch(s, ClassSleep, rolls);
      var at := s.attributes;
      && r.attributes == at.(energy := Min(at.maxEnergy, at.energy + 5.0),
                             spirit := Min(at.maxSpirit, at.spirit + 5.0))
      && r.academics == s.academics
      && r.logs[..|s.logs| + 1] == s.logs + [LogEntry(Warning, DozedInClass, Timestamp(s.time))]
  {
  }

  // ----- the lesson lifecycle -----

  /** A lesson action's dispatch: turns one to four move the counter on and
      keep the lesson; the fifth ends it and rings the bell. */
  lemma LessonDispatch(s: GameState, a: Action, rolls: Rolls)
    requires Inv(s) && s.mode == Class && IsLessonAction(a)
    ensures Executable(a, s)
    ensures var d := Dispatch(s, a, rolls);
      && (s.classTurn < 5 ==>
            d.mode == Class && d.classTurn == s.classTurn + 1 && d.currentClassSubject == s.currentClassSubject)
      && (s.classTurn == 5 ==>
            && d.mode == FreeRoam && d.classTurn == 1
            && |d.logs| > 0 && d.logs[|d.logs| - 1] == LogEntry(EventLog, ClassBell, Timestamp(d.time)))
  {
    var (u, narration) := Execute(a, s, rolls);
    var advanced := AdvanceTime(Merge(s.(logs := s.logs + narration), u), RealCost(a, s));
    assert Dispatch(s, a, rolls) == ClassTurnStep(advanced);
  }

  /** One click during a lesson: turns one to four keep the lesson; the
      fifth ends it, unless the watcher at once starts the next lesson on
      the timetable. */
  lemma LessonClick(s: GameState, choice: nat, rolls: Rolls)
    requires Inv(s) && s.mode == Class && choice < |Offered(s)|
    ensures Clickable(s, choice)
    ensures var d := Dispatch(s, Offered(s)[choice], rolls);
      var r := Step(s, choice, rolls);
      && (s.classTurn < 5 ==>
            r.mode == Class && r.classTurn == s.classTurn + 1 && r.currentClassSubject == s.currentClassSubject)
      && (s.classTurn == 5 ==>
            && d.mode == FreeRoam
            && |d.logs| > 0 && d.logs[|d.logs| - 1] == LogEntry(EventLog, ClassBell, Timestamp(d.time))
            && r.classTurn == 1
            && (r.mode == FreeRoam <==> !StartsClass(d)))
  {
    OfferedInClass(s);
    LessonDispatch(s, Offered(s)[choice], rolls);
  }

  /** A lesson started at turn `classTurn` stays on for the remaining
      `5 - classTurn` clicks, whichever lesson buttons are pressed, and the
      subject does not change. */
  lemma {:induction false} LessonLastsFiveTurns(s: GameState, clicks: seq<(nat, Rolls)>)
    requires Inv(s) && s.mode == Class
    requires |clicks| == 5 - s.classTurn
    requires forall k | 0 <= k < |clicks| :: clicks[k].0 < 3
    ensures Run(s, clicks).Some?
    ensures Run(s, clicks).value.mode == Class && Run(s, clicks).value.classTurn == 5
    ensures Run(s, clicks).value.currentClassSubject == s.currentClassSubject
    decreases |clicks|
  {
    if |clicks| > 0 {
      OfferedInClass(s);
      var (choice, rolls) := clicks[0];
      LessonClick(s, choice, rolls);
      StepPreservesInv(s, choice, rolls);
      LessonLastsFiveTurns(Step(s, choice, rolls), clicks[1..]);
    }
  }

  // ----- the schedule -----

  /** Walking into the classroom at 09:00 on a weekday starts maths. */
  lemma MathsAtNine(s: GameState)
    requires s.mode == FreeRoam && s.location == "classroom"
    requires s.time.hour == 9 && s.time.minute == 0 && 1 <= s.time.weekday <= 5
    ensures ScheduleCheck(s).mode == Class && ScheduleCheck(s).currentClassSubject == Some(Math)
  {
  }

  /** Nothing starts at the weekend. */
  lemma NoLessonsAtWeekend(s: GameState)
    requires s.time.weekday == 0 || s.time.weekday == 6
    ensures ScheduleCheck(s).mode == s.mode
    ensures ScheduleCheck(s).logs == s.logs + (if AtCurfew(s) then [LogEntry(Warning, Curfew, Timestamp(s.time))] else [])
  {
  }
}

=== FILE: engine.dfy ===
/** The main loop: `handleAction` (execute, merge, advance the clock, step
    the lesson counter) and the schedule watcher that runs after it. */
module Engine {
  import opened Wrappers
  import opened Types
  import opened Constants
  import opened Utils
  import opened Clock
  import opened ActionCatalog
  import opened ActionPanel

  // ----- time cost -----

  /** Minutes of sleep from `t`: to 06:00 of the next day from 20:00 on,
      otherwise to 06:00 of the same day. */
  function SleepCost(t: TimeState): (r: int)
    ensures Normalised(t) && (t.hour >= 20 || t.hour < 5) ==>
      && 0 < r < 1440
      && (MinutesFromMidnight(t) + r) % 1440 == 6 * 60
      && (MinutesFromMidnight(t) + r) / 1440 == (if t.hour >= 20 then 1 else 0)
  {
    if t.hour >= 20 then (24 - t.hour) * 60 - t.minute + 6 * 60
    else 6 * 60 - (t.hour * 60 + t.minute)
  }

  /** Two normalised clocks the same number of minutes after day 0 show the
      same day, hour and minute. */
  lemma ElapsedDetermines(a: TimeState, b: TimeState)
    requires Normalised(a) && Normalised(b) && Elapsed(a) == Elapsed(b)
    ensures a.day == b.day && a.hour == b.hour && a.minute == b.minute
  {
    var xa, xb := a.hour * 60 + a.minute, b.hour * 60 + b.minute;
    assert 0 <= xa < 1440 && 0 <= xb < 1440;
  }

  /** Sleeping at night always wakes the player at 06:00: the next day when
      they went to bed from 20:00 on, the same day after midnight. */
  lemma SleepWakesAtSix(t: TimeState)
    requires Normalised(t) && (t.hour >= 20 || t.hour < 5)
    ensures SleepCost(t) > 0
    ensures var w := AdvanceClock(t, SleepCost(t));
      && w.hour == 6 && w.minute == 0
      && w.day == t.day + (if t.hour >= 20 then 1 else 0)
      && w.weekday == (if t.hour >= 20 then (t.weekday + 1) % 7 else t.weekday)
  {
    var w := AdvanceClock(t, SleepCost(t));
    var next := if t.hour >= 20 then 1 else 0;
    ElapsedDetermines(w, TimeState(t.day + next, 6, 0, 0));
  }

  /** The minutes an action takes: its listed cost, except that sleep lasts
      until 06:00. */
  function RealCost(a: Action, s: GameState): (r: int)
    ensures a != Sleep ==> r == CostMinutes(a)
    ensures a.MoveTo? ==> r == a.cost
    ensures a == Sleep && Normalised(s.time) && (s.time.hour >= 20 || s.time.hour < 5) ==>
      0 < r < 1440 && (MinutesFromMidnight(s.time) + r) % 1440 == 6 * 60
  {
    if a == Sleep then SleepCost(s.time) else CostMinutes(a)
  }

  // ----- handleAction -----

  /** The lesson counter after a lesson action: the fifth turn rings the bell
      (logged after the mode is reset, with the clock as it now stands),
      otherwise the counter moves on. */
  function ClassTurnStep(s: GameState): (r: GameState)
    ensures s.classTurn >= 5 ==>
      && r.mode == FreeRoam && r.classTurn == 1 && r.currentClassSubject == None
      && r.logs == s.logs + [LogEntry(EventLog, ClassBell, Timestamp(s.time))]
    ensures s.classTurn < 5 ==>
      r == s.(classTurn := s.classTurn + 1)
    ensures r.time == s.time && r.location == s.location && r.attributes == s.attributes
    ensures r.academics == s.academics && r.money == s.money && r.wearingUniform == s.wearingUniform
  {
    if s.classTurn >= 5 then
      var ended := s.(mode := FreeRoam, classTurn := 1, currentClassSubject := None);
      ended.(logs := ended.logs + [Entry(EventLog, ClassBell, ended)])
    else
      s.(classTurn := s.classTurn + 1)
  }

  /** One click: the action's queued log lines are appended, its update is
      merged over the state, the clock advances by the real cost, and during
      a lesson the counter steps. The action, its cost and the mode tested
      are all those of the state the click was made in. */
  function Dispatch(s: GameState, a: Action, rolls: Rolls): (r: GameState)
    requires Executable(a, s)
    ensures Normalised(s.time) && RealCost(a, s) >= 0 ==>
      Normalised(r.time) && Elapsed(r.time) == Elapsed(s.time) + RealCost(a, s)
    ensures r.time == AdvanceClock(s.time, RealCost(a, s))
    ensures r.location == if a.MoveTo? then a.target else s.location
    ensures s.mode == Class && s.classTurn >= 5 ==>
      r.mode == FreeRoam && r.classTurn == 1 && r.currentClassSubject == None
    ensures s.mode == Class && s.classTurn < 5 ==>
      r.mode == Class && r.classTurn == s.classTurn + 1 && r.currentClassSubject == s.currentClassSubject
    ensures s.mode != Class ==>
      r.mode == s.mode && r.classTurn == s.classTurn && r.currentClassSubject == s.currentClassSubject
    ensures s.logs <= r.logs
  {
    var (u, narration) := Execute(a, s, rolls);
    var queued := s.(logs := s.logs + narration);
    ExecuteFrame(a, s, rolls);
    var merged := Merge(queued, u);
    var advanced := AdvanceTime(merged, RealCost(a, s));
    if s.mode == Class then ClassTurnStep(advanced) else advanced
  }

  // ----- the schedule watcher -----

  /** The first slot of `slots` that contains minute `mins`. */
  function FindSlot(slots: seq<ScheduleEntry>, mins: int): (r: Option<ScheduleEntry>)
    ensures r.None? <==> forall i | 0 <= i < |slots| :: !(slots[i].start <= mins < slots[i].end)
    ensures r.Some? ==> r.value in slots && r.value.start <= mins < r.value.end
    ensures r.Some? ==> exists i | 0 <= i < |slots| ::
      slots[i] == r.value && forall j | 0 <= j < i :: !(slots[j].start <= mins < slots[j].end)
  {
    if |slots| == 0 then None
    else if slots[0].start <= mins < slots[0].end then Some(slots[0])
    else FindSlot(slots[1..], mins)
  }

  /** The lesson on the timetable at `mins` on `weekday`: Monday to Friday
      only. */
  function ClassAt(weekday: int, mins: int): (r: Option<ScheduleEntry>)
    ensures r.Some? ==> 1 <= weekday <= 5 && r.value in DailySchedule && r.value.start <= mins < r.value.end
    ensures 1 <= weekday <= 5 ==>
      ((exists i | 0 <= i < |DailySchedule| :: DailySchedule[i].start <= mins < DailySchedule[i].end) ==> r.Some?)
  {
    if 1 <= weekday <= 5 then FindSlot(DailySchedule, mins) else None
  }

  /** The lesson slots are disjoint, so the slot found is the only one that
      contains the minute. */
  lemma ClassAtUnique(weekday: int, mins: int, i: int)
    requires ClassAt(weekday, mins).Some?
    requires 0 <= i < |DailySchedule| && DailySchedule[i].start <= mins < DailySchedule[i].end
    ensures ClassAt(weekday, mins).value == DailySchedule[i]
  {
    ScheduleWellFormed();
  }

  /** Whether the watcher starts a lesson: a lesson is on and the player is
      in the classroom outside class mode. */
  predicate StartsClass(s: GameState) {
    ClassAt(s.time.weekday, MinutesFromMidnight(s.time)).Some? && s.location == "classroom" && s.mode != Class
  }

  /** Whether the watcher warns of lateness: exactly five minutes into a
      lesson, elsewhere and outside class mode. */
  predicate WarnsLate(s: GameState) {
    var slot := ClassAt(s.time.weekday, MinutesFromMidnight(s.time));
    slot.Some? && s.location != "classroom" && s.mode != Class
      && MinutesFromMidnight(s.time) == slot.value.start + 5
  }

  /** Whether the curfew warning fires: exactly 22:00. */
  predicate AtCurfew(s: GameState) {
    s.time.hour == 22 && s.time.minute == 0
  }

  /** The effect that runs after each change of clock or place: start the
      current lesson in the classroom, warn five minutes into a lesson
      elsewhere, and warn at the 22:00 curfew. */
  function ScheduleCheck(s: GameState): (r: GameState)
    ensures r.time == s.time && r.location == s.location && r.attributes == s.attributes
    ensures r.academics == s.academics && r.money == s.money && r.wearingUniform == s.wearingUniform
    ensures StartsClass(s) ==>
      && r.mode == Class && r.classTurn == 1
      && r.currentClassSubject == Some(ClassAt(s.time.weekday, MinutesFromMidnight(s.time)).value.subject)
    ensures !StartsClass(s) ==>
      r.mode == s.mode && r.classTurn == s.classTurn && r.currentClassSubject == s.currentClassSubject
    ensures s.logs <= r.logs
    ensures |r.logs| == |s.logs| + (if StartsClass(s) || WarnsLate(s) then 1 else 0) + (if AtCurfew(s) then 1 else 0)
    ensures StartsClass(s) ==>
      r.logs[|s.logs|] == LogEntry(EventLog, ClassStarted(r.currentClassSubject.value), Timestamp(s.time))
    ensures WarnsLate(s) ==> r.logs[|s.logs|] == LogEntry(Error, LateForClass, Timestamp(s.time))
    ensures AtCurfew(s) ==> r.logs[|r.logs| - 1] == LogEntry(Warning, Curfew, Timestamp(s.time))
  {
    var mins := MinutesFromMidnight(s.time);
    var lesson :=
      match ClassAt(s.time.weekday, mins)
      case None => s
      case Some(slot) =>
        if s.location == "classroom" && s.mode != Class then
          s.(logs := s.logs + [Entry(EventLog, ClassStarted(slot.subject), s)],
             mode := Class, currentClassSubject := Some(slot.subject), classTurn := 1)
        else if s.location != "classroom" && s.mode != Class && mins == slot.start + 5 then
          s.(logs := s.logs + [Entry(Error, LateForClass, s)])
        else s;
    if s.time.hour == 22 && s.time.minute == 0 then
      lesson.(logs := lesson.logs + [Entry(Warning, Curfew, lesson)])
    else lesson
  }

  // ----- a turn of the game -----

  /** Clicking the `choice`-th button of the panel, then letting the schedule
      watcher run. */
  function Step(s: GameState, choice: nat, rolls: Rolls): (r: GameState)
    requires Clickable(s, choice)
    ensures r.location == if Offered(s)[choice].MoveTo? then Offered(s)[choice].target else s.location
    ensures Normalised(s.time) && RealCost(Offered(s)[choice], s) >= 0 ==>
      Normalised(r.time) && Elapsed(r.time) == Elapsed(s.time) + RealCost(Offered(s)[choice], s)
    ensures s.logs <= r.logs
  {
    ScheduleCheck(Dispatch(s, Offered(s)[choice], rolls))
  }

  /** Whether `choice` names a shown button whose action can execute. */
  predicate Clickable(s: GameState, choice: nat) {
    choice < |Offered(s)| && Executable(Offered(s)[choice], s)
  }

  /** A sequence of clicks from `s`; `None` as soon as a click names no shown
      button (or one that cannot execute). */
  function Run(s: GameState, clicks: seq<(nat, Rolls)>): (r: Option<GameState>)
    decreases |clicks|
  {
    if |clicks| == 0 then Some(s)
    else
      var (choice, rolls) := clicks[0];
      if Clickable(s, choice) then
        Run(Step(s, choice, rolls), clicks[1..])
      else None
  }

  /** The state the game starts in: day 1, Monday 06:30, in the dorm. */
  const InitialState: GameState :=
    GameState(TimeState(1, 6, 30, 1), "dorm", FreeRoam, InitialStats, InitialAcademics, 1000, false, [], None, 1)
}

=== FILE: invariants.dfy ===
/** What every reachable game state satisfies, and what single clicks do. */
module Invariants {
  import opened Wrappers
  import opened Types
  import opened Constants
  import opened Utils
  import opened Clock
  import opened ActionCatalog
  import opened ActionPanel
  import opened Engine

  // ----- the invariant -----

  /** Survival stats between zero and their caps, mood on the 0-100 scale,
      competition stats never negative. */
  predicate StatsInRange(at: Attributes) {
    && 0.0 <= at.energy <= at.maxEnergy
    && 0.0 <= at.spirit <= at.maxSpirit
    && 0.0 <= at.health <= at.maxHealth
    && 0.0 <= at.mood <= 100.0
    && at.speed >= 0.0 && at.stamina >= 0.0 && at.power >= 0.0
    && at.guts >= 0.0 && at.intelligence >= 0.0
  }

  /** A well-formed game state: a normalised clock at a known place; a
      lesson subject exactly while in class mode (the event mode is never
      entered); a lesson counter in 1..5; experience for every subject and
      never negative; money never negative; stats in range. */
  predicate Inv(s: GameState) {
    && Normalised(s.time)
    && s.location in Locations
    && s.mode != EventMode
    && (s.mode == Class <==> s.currentClassSubject.Some?)
    && 1 <= s.classTurn <= 5
    && (forall subj: Subject :: subj in s.academics && s.academics[subj] >= 0.0)
    && s.money >= 0
    && StatsInRange(s.attributes)
  }

  /** The game starts in a well-formed state. */
  lemma InitialStateInv()
    ensures Inv(InitialState)
    ensures InitialState.mode == FreeRoam && InitialState.location == "dorm"
  {
    SubjectsComplete();
  }

  // ----- what the panel lets through -----

  /** What a shown action is known to satisfy: its condition holds, a move
      follows a declared edge, and lesson actions appear exactly in class
      mode. */
  predicate Allowed(a: Action, s: GameState) {
    && Passes(a, s)
    && (a.MoveTo? ==> HasEdge(s.location, a.target, a.cost))
    && (IsLessonAction(a) <==> s.mode == Class)
  }

  lemma OfferedAllowed(s: GameState, a: Action)
    requires a in Offered(s)
    ensures Allowed(a, s)
  {
    if s.mode == Class {
      AvailableInClass(s);
    } else {
      AvailableMoves(s);
    }
  }

  /** In a well-formed state every shown action can execute. */
  lemma OfferedExecutable(s: GameState, a: Action)
    requires Inv(s) && a in Offered(s)
    ensures Executable(a, s)
  {
    OfferedAllowed(s, a);
  }

  /** Every shown action takes time. */
  lemma AllowedCostPositive(s: GameState, a: Action)
    requires Inv(s) && Allowed(a, s)
    ensures RealCost(a, s) > 0
  {
    if a.MoveTo? {
      EdgeTargetKnown(s.location, a.target, a.cost);
    }
    if a == Sleep {
      SleepWakesAtSix(s.time);
    }
  }

  // ----- preservation -----

  /** The state after the click's log lines are queued and its update is
      merged, before the clock moves. */
  function Merged(s: GameState, a: Action, rolls: Rolls): GameState
    requires Executable(a, s)
  {
    Merge(s.(logs := s.logs + Execute(a, s, rolls).1), Execute(a, s, rolls).0)
  }

  /** Merging the update an action returns keeps the state well-formed,
      given that the action was shown. */
  lemma MergePreservesInv(s: GameState, a: Action, rolls: Rolls)
    requires Inv(s) && Allowed(a, s) && Executable(a, s)
    ensures Inv(Merged(s, a, rolls))
  {
    if a.ClassListen? {
      MergeListen(s, a, rolls);
    } else if a.ClassTalk? || a.ClassSleep? {
      MergeChat(s, a, rolls);
    } else if a.MoveTo? {
      MergeMove(s, a, rolls);
    } else if a.Sleep? || a.WearUniform? {
      MergeRest(s, a, rolls);
    } else if a.DormStudy? {
      MergeDormStudy(s, a, rolls);
    } else if a.LibraryStudy? {
      MergeLibraryStudy(s, a, rolls);
    } else if a.ClassroomStudy? {
      MergeClassroomStudy(s, a, rolls);
    } else if a.Shower? {
      MergeShower(s, a, rolls);
    } else if a.EatLunch? {
      MergeLunch(s, a, rolls);
    } else {
      MergeTraining(s, a, rolls);
    }
  }

  lemma MergeListen(s: GameState, a: Action, rolls: Rolls)
    requires Inv(s) && Allowed(a, s) && Executable(a, s) && (a.ClassListen?)
    ensures Inv(Merged(s, a, rolls))
  {
  }

  lemma MergeChat(s: GameState, a: Action, rolls: Rolls)
    requires Inv(s) && Allowed(a, s) && Executable(a, s) && (a.ClassTalk? || a.ClassSleep?)
    ensures Inv(Merged(s, a, rolls))
  {
  }

  lemma MergeMove(s: GameState, a: Action, rolls: Rolls)
    requires Inv(s) && Allowed(a, s) && Executable(a, s) && (a.MoveTo?)
    ensures Inv(Merged(s, a, rolls))
  {
    EdgeTargetKnown(s.location, a.target, a.cost);
  }

  lemma MergeRest(s: GameState, a: Action, rolls: Rolls)
    requires Inv(s) && Allowed(a, s) && Executable(a, s) && (a.Sleep? || a.WearUniform?)
    ensures Inv(Merged(s, a, rolls))
  {
  }

  lemma MergeDormStudy(s: GameState, a: Action, rolls: Rolls)
    requires Inv(s) && Allowed(a, s) && Executable(a, s) && (a.DormStudy?)
    ensures Inv(Merged(s, a, rolls))
  {
  }

  lemma MergeLibraryStudy(s: GameState, a: Action, rolls: Rolls)
    requires Inv(s) && Allowed(a, s) && Executable(a, s) && (a.LibraryStudy?)
    ensures Inv(Merged(s, a, rolls))
  {
  }

  lemma MergeClassroomStudy(s: GameState, a: Action, rolls: Rolls)
    requires Inv(s) && Allowed(a, s) && Executable(a, s) && (a.ClassroomStudy?)
    ensures Inv(Merged(s, a, rolls))
  {
  }

  lemma MergeShower(s: GameState, a: Action, rolls: Rolls)
    requires Inv(s) && Allowed(a, s) && Executable(a, s) && (a.Shower?)
    ensures Inv(Merged(s, a, rolls))
  {
  }

  lemma MergeLunch(s: GameState, a: Action, rolls: Rolls)
    requires Inv(s) && Allowed(a, s) && Executable(a, s) && (a.EatLunch?)
    ensures Inv(Merged(s, a, rolls))
  {
  }

  lemma MergeTraining(s: GameState, a: Action, rolls: Rolls)
    requires Inv(s) && Allowed(a, s) && Executable(a, s) && (a.TrainGroup? || a.TrainSpeed?)
    ensures Inv(Merged(s, a, rolls))
  {
  }

  /** Advancing the clock by a non-negative amount keeps the state
      well-formed. */
  lemma AdvanceTimePreservesInv(s: GameState, minutes: int)
    requires Inv(s) && minutes >= 0
    ensures Inv(AdvanceTime(s, minutes))
  {
    MoodDriftInRange(s.attributes.mood, minutes);
  }

  /** Stepping the lesson counter keeps a class-mode state well-formed. */
  lemma ClassTurnStepPreservesInv(s: GameState)
    requires Inv(s) && s.mode == Class
    ensures Inv(ClassTurnStep(s))
  {
  }

  /** A click on a shown action keeps the state well-formed. */
  lemma DispatchPreservesInv(s: GameState, a: Action, rolls: Rolls)
    requires Inv(s) && Allowed(a, s) && Executable(a, s)
    ensures Inv(Dispatch(s, a, rolls))
  {
    AllowedCostPositive(s, a);
    MergePreservesInv(s, a, rolls);
    var merged := Merged(s, a, rolls);
    AdvanceTimePreservesInv(merged, RealCost(a, s));
    if s.mode == Class {
      ClassTurnStepPreservesInv(AdvanceTime(merged, RealCost(a, s)));
    }
  }

  /** Mood drift keeps mood on the 0-100 scale. */
  lemma MoodDriftInRange(mood: real, minutes: int)
    requires 0.0 <= mood <= 100.0
    ensures 0.0 <= MoodDrift(mood, minutes) <= 100.0
  {
  }

  /** The schedule watcher keeps a well-formed state well-formed. */
  lemma ScheduleCheckPreservesInv(s: GameState)
    requires Inv(s)
    ensures Inv(ScheduleCheck(s))
  {
  }

  /** Any click on a shown button keeps a well-formed state well-formed, and
      the clock moves forward by the action's real cost. */
  lemma StepPreservesInv(s: GameState, choice: nat, rolls: Rolls)
    requires Inv(s) && choice < |Offered(s)|
    ensures Clickable(s, choice)
    ensures Inv(Step(s, choice, rolls))
    ensures Elapsed(Step(s, choice, rolls).time) > Elapsed(s.time)
  {
    var a := Offered(s)[choice];
    OfferedAllowed(s, a);
    OfferedExecutable(s, a);
    AllowedCostPositive(s, a);
    var d := Dispatch(s, a, rolls);
    DispatchPreservesInv(s, a, rolls);
    ScheduleCheckPreservesInv(d);
    assert Step(s, choice, rolls) == ScheduleCheck(d);
    assert Elapsed(d.time) == Elapsed(s.time) + RealCost(a, s);
  }

  /** Every state reached by a run of clicks from a well-formed state is
      well-formed. */
  lemma {:induction false} RunPreservesInv(s: GameState, clicks: seq<(nat, Rolls)>)
    requires Inv(s) && Run(s, clicks).Some?
    ensures Inv(Run(s, clicks).value)
    ensures Elapsed(Run(s, clicks).value.time) >= Elapsed(s.time) + |clicks|
    decreases |clicks|
  {
    if |clicks| > 0 {
      var (choice, rolls) := clicks[0];
      StepPreservesInv(s, choice, rolls);
      RunPreservesInv(Step(s, choice, rolls), clicks[1..]);
    }
  }
}

=== FILE: types.dfy ===
/** The engine's data model: time, attributes, academics, log entries, game
    state, and actions as tagged variants instead of closures. */
module Types {
  import opened Wrappers

  type LocationId = string

  /** The three engine modes; `EventMode` is declared but never entered. */
  datatype GameMode = FreeRoam | Class | EventMode

  /** The eight school subjects, in declaration order. */
  datatype Subject = Chinese | History | Math | Biology | Music | Art | Maintenance | HomeEc

  /** Enumeration order of the subjects, which drives the order of the
      per-subject study actions. */
  const AllSubjects: seq<Subject> :=
    [Chinese, History, Math, Biology, Music, Art, Maintenance, HomeEc]

  /** Letter grades, best first. */
  datatype Grade = S | A | B | C | D | E | F | G

  /** Clock reading; `weekday` counts from 0 = Sunday. */
  datatype TimeState = TimeState(day: int, hour: int, minute: int, weekday: int)

  /** A clock reading whose fields are all in their documented ranges. */
  predicate Normalised(t: TimeState) {
    && t.day >= 1
    && 0 <= t.hour < 24
    && 0 <= t.minute < 60
    && 0 <= t.weekday < 7
  }

  /** Survival stats (with caps) and competition stats. */
  datatype Attributes = Attributes(
    energy: real, maxEnergy: real,
    spirit: real, maxSpirit: real,
    health: real, maxHealth: real,
    mood: real,
    speed: real, stamina: real, power: real, guts: real, intelligence: real)

  /** Accumulated experience per subject; the grade is derived from it. */
  type Academics = map<Subject, real>

  /** The five log entry tags. */
  datatype LogType = Info | Success | Warning | Error | EventLog

  /** What a log line narrates; stands in for the display text. */
  datatype LogMsg =
    | Listened(subject: Subject)
    | EyeContact
    | Chatted
    | DozedInClass
    | Travelled(target: LocationId)
    | WentToBed
    | NextDay
    | PutOnUniform
    | DormStudied(subject: Subject)
    | Showered
    | NoMoney
    | AteBurger
    | GroupTrained
    | SpeedTrained
    | LibraryStudied(subject: Subject)
    | ClassroomStudied(subject: Subject)
    | ClassBell
    | ClassStarted(subject: Subject)
    | LateForClass
    | Curfew

  /** A log line; `timestamp` is the "HH:MM" part of the formatted clock. */
  datatype LogEntry = LogEntry(kind: LogType, msg: LogMsg, timestamp: string)

  /** The aggregate game state. */
  datatype GameState = GameState(
    time: TimeState,
    location: LocationId,
    mode: GameMode,
    attributes: Attributes,
    academics: Academics,
    money: int,
    wearingUniform: bool,
    logs: seq<LogEntry>,
    currentClassSubject: Option<Subject>,
    classTurn: int)

  /** The predicates that gate location actions. */
  datatype Condition =
    | NightTime                   // hour >= 20 or hour < 5
    | SpiritAtLeast(spirit: real)
    | EnergyAtLeast(energy: real)
    | EnergyBelowMax

  /** Every action the catalog can produce, as a tagged variant. A move
      carries the edge it travels: target and cost in minutes. The cost and
      the gating condition of every other action are fixed by its tag. */
  datatype Action =
    | ClassListen
    | ClassTalk
    | ClassSleep
    | MoveTo(target: LocationId, cost: int)
    | Sleep
    | WearUniform
    | DormStudy(subject: Subject)
    | Shower
    | EatLunch
    | TrainGroup
    | TrainSpeed
    | LibraryStudy(subject: Subject)
    | ClassroomStudy(subject: Subject)

  /** A partial game state: each present field overwrites the state's field
      when merged. */
  datatype PartialUpdate = PartialUpdate(
    time: Option<TimeState>,
    location: Option<LocationId>,
    mode: Option<GameMode>,
    attributes: Option<Attributes>,
    academics: Option<Academics>,
    money: Option<int>,
    wearingUniform: Option<bool>,
    logs: Option<seq<LogEntry>>,
    currentClassSubject: Option<Option<Subject>>,
    classTurn: Option<int>)

  /** The empty update `{}`. */
  const NoUpdate := PartialUpdate(None, None, None, None, None, None, None, None, None, None)

  /** The update `{ ...s }`: every field of `s`, its log included. */
  function Spread(s: GameState): PartialUpdate {
    PartialUpdate(Some(s.time), Some(s.location), Some(s.mode), Some(s.attributes),
                  Some(s.academics), Some(s.money), Some(s.wearingUniform), Some(s.logs),
                  Some(s.currentClassSubject), Some(s.classTurn))
  }

  /** Shallow merge `{ ...s, ...u }`: a field the update carries wins, an
      absent one keeps the state's value. So the empty update changes
      nothing, and merging a whole-state spread yields exactly that state,
      whatever it is merged into (its old log included). */
  function Merge(s: GameState, u: PartialUpdate): (r: GameState)
    ensures u.time.Some? ==> r.time == u.time.value
    ensures u.time.None? ==> r.time == s.time
    ensures u.location.Some? ==> r.location == u.location.value
    ensures u.location.None? ==> r.location == s.location
    ensures u.mode.Some? ==> r.mode == u.mode.value
    ensures u.mode.None? ==> r.mode == s.mode
    ensures u.attributes.Some? ==> r.attributes == u.attributes.value
    ensures u.attributes.None? ==> r.attributes == s.attributes
    ensures u.academics.Some? ==> r.academics == u.academics.value
    ensures u.academics.None? ==> r.academics == s.academics
    ensures u.money.Some? ==> r.money == u.money.value
    ensures u.money.None? ==> r.money == s.money
    ensures u.wearingUniform.Some? ==> r.wearingUniform == u.wearingUniform.value
    ensures u.wearingUniform.None? ==> r.wearingUniform == s.wearingUniform
    ensures u.logs.Some? ==> r.logs == u.logs.value
    ensures u.logs.None? ==> r.logs == s.logs
    ensures u.currentClassSubject.Some? ==> r.currentClassSubject == u.currentClassSubject.value
    ensures u.currentClassSubject.None? ==> r.currentClassSubject == s.currentClassSubject
    ensures u.classTurn.Some? ==> r.classTurn == u.classTurn.value
    ensures u.classTurn.None? ==> r.classTurn == s.classTurn
    ensures u == NoUpdate ==> r == s
    ensures forall t {:trigger Spread(t)} :: u == Spread(t) ==> r == t
  {
    GameState(
      u.time.GetOr(s.time),
      u.location.GetOr(s.location),
      u.mode.GetOr(s.mode),
      u.attributes.GetOr(s.attributes),
      u.academics.GetOr(s.academics),
      u.money.GetOr(s.money),
      u.wearingUniform.GetOr(s.wearingUniform),
      u.logs.GetOr(s.logs),
      u.currentClassSubject.GetOr(s.currentClassSubject),
      u.classTurn.GetOr(s.classTurn))
  }
}

=== FILE: utils.dfy ===
/** Pure helpers: clock formatting, the in-game calendar, grade lookup,
    minutes since midnight and clamping. */
module Utils {
  import opened Wrappers
  import opened Types
  import opened Constants

  // ----- JavaScript arithmetic -----

  /** JavaScript's `%`, which truncates toward zero (the result takes the
      sign of the dividend). */
  function JsRem(a: int, b: int): (r: int)
    requires b > 0
    ensures -b < r < b
    ensures a == JsQuot(a, b) * b + r
    ensures a >= 0 ==> 0 <= r
    ensures a <= 0 ==> r <= 0
  {
    if a >= 0 then a % b else -((-a) % b)
  }

  /** Division truncated toward zero, the quotient that goes with `JsRem`. */
  function JsQuot(a: int, b: int): int
    requires b > 0
  {
    if a >= 0 then a / b else -((-a) / b)
  }

  // ----- number to text -----

  function DigitChar(d: int): char
    requires 0 <= d < 10
  {
    ('0' as int + d) as char
  }

  function DigitValue(c: char): int {
    if '0' <= c <= '9' then c as int - '0' as int else 0
  }

  predicate IsDigit(c: char) {
    '0' <= c <= '9'
  }

  /** Decimal digits of `n`, most significant first (`Number.toString`). */
  function NatToString(n: nat): (r: string)
    ensures |r| >= 1
    ensures forall i | 0 <= i < |r| :: IsDigit(r[i])
  {
    if n < 10 then [DigitChar(n)] else NatToString(n / 10) + [DigitChar(n % 10)]
  }

  function IntToString(n: int): string {
    if n < 0 then "-" + NatToString(-n) else NatToString(n)
  }

  /** `s.padStart(2, '0')`. */
  function PadStart2(s: string): string {
    if |s| >= 2 then s else seq(2 - |s|, _ => '0') + s
  }

  /** The two-character decimal rendering of a number below 100 reads back
      as that number. */
  lemma TwoDigits(n: int)
    ensures 0 <= n < 100 ==> var r := PadStart2(IntToString(n));
      |r| == 2 && IsDigit(r[0]) && IsDigit(r[1]) && DigitValue(r[0]) * 10 + DigitValue(r[1]) == n
  {
    if 0 <= n < 10 {
      assert IntToString(n) == [DigitChar(n)];
      assert PadStart2(IntToString(n)) == ['0', DigitChar(n)];
    } else if 10 <= n < 100 {
      assert NatToString(n / 10) == [DigitChar(n / 10)];
      assert IntToString(n) == [DigitChar(n / 10), DigitChar(n % 10)];
    }
  }

  // ----- formatTime -----

  const WeekdayNames: seq<string> := ["周日", "周一", "周二", "周三", "周四", "周五", "周六"]

  /** The weekday table entry; an index outside it renders as "undefined". */
  function WeekdayName(w: int): string {
    if 0 <= w < |WeekdayNames| then WeekdayNames[w] else "undefined"
  }

  function ClockText(t: TimeState): string {
    PadStart2(IntToString(t.hour)) + ":" + PadStart2(IntToString(t.minute))
  }

  /** "<weekday> HH:MM": for a normalised clock the text is eight characters,
      begins with the weekday's table entry, and its digits read back as the
      hour and the minute. */
  function FormatTime(t: TimeState): (r: string)
    ensures Normalised(t) ==>
      && |r| == 8
      && r[..2] == WeekdayNames[t.weekday]
      && r[2] == ' ' && r[5] == ':'
      && IsDigit(r[3]) && IsDigit(r[4]) && IsDigit(r[6]) && IsDigit(r[7])
      && DigitValue(r[3]) * 10 + DigitValue(r[4]) == t.hour
      && DigitValue(r[6]) * 10 + DigitValue(r[7]) == t.minute
  {
    TwoDigits(t.hour);
    TwoDigits(t.minute);
    WeekdayName(t.weekday) + " " + ClockText(t)
  }

  // ----- split(' ') -----

  /** `s.split(sep)`. */
  function Split(s: string, sep: char): (r: seq<string>)
    ensures |r| >= 1
    decreases |s|
  {
    if |s| == 0 then [""]
    else
      var rest := Split(s[1..], sep);
      if s[0] == sep then [""] + rest else [[s[0]] + rest[0]] + rest[1..]
  }

  lemma {:induction false} SplitNoSeparator(x: string, sep: char)
    requires sep !in x
    ensures Split(x, sep) == [x]
    decreases |x|
  {
    if |x| > 0 {
      SplitNoSeparator(x[1..], sep);
      assert [x[0]] + x[1..] == x;
    }
  }

  lemma {:induction false} SplitAtFirst(x: string, sep: char, y: string)
    requires sep !in x
    ensures Split(x + [sep] + y, sep) == [x] + Split(y, sep)
    decreases |x|
  {
    var s := x + [sep] + y;
    if |x| == 0 {
      assert s[1..] == y;
    } else {
      assert s[1..] == x[1..] + [sep] + y;
      SplitAtFirst(x[1..], sep, y);
      assert [x[0]] + x[1..] == x;
    }
  }

  /** A log entry's timestamp, `formatTime(t).split(' ')[1]`: the "HH:MM"
      part of the formatted clock, i.e. the formatted text after the
      weekday and the space. */
  function Timestamp(t: TimeState): (r: string)
    ensures r == ClockText(t)
    ensures Normalised(t) ==> |r| == 5 && r == FormatTime(t)[3..]
  {
    FormatTimeSplits(t);
    Split(FormatTime(t), ' ')[1]
  }

  /** The formatted clock splits at its one space into weekday and clock. */
  lemma FormatTimeSplits(t: TimeState)
    ensures Split(FormatTime(t), ' ') == [WeekdayName(t.weekday), ClockText(t)]
  {
    var w := WeekdayName(t.weekday);
    var c := ClockText(t);
    assert ' ' !in w by {
      if 0 <= t.weekday < |WeekdayNames| {
        assert w == WeekdayNames[t.weekday];
      }
    }
    ClockTextNoSpace(t);
    assert FormatTime(t) == w + [' '] + c;
    SplitAtFirst(w, ' ', c);
    SplitNoSeparator(c, ' ');
  }

  lemma ClockTextNoSpace(t: TimeState)
    ensures ' ' !in ClockText(t)
  {
    var h := IntToString(t.hour);
    var m := IntToString(t.minute);
    assert ' ' !in h;
    assert ' ' !in m;
    assert ' ' !in PadStart2(h);
    assert ' ' !in PadStart2(m);
  }

  // ----- getMinutesFromMidnight -----

  /** Minutes since midnight; for a normalised clock it lies within a day. */
  function MinutesFromMidnight(t: TimeState): (r: int)
    ensures Normalised(t) ==> 0 <= r < 1440
  {
    t.hour * 60 + t.minute
  }

  /** For a normalised clock the minute count decomposes back into the hour
      and the minute, so distinct clock readings within a day never share a
      count. */
  lemma MinutesFromMidnightDecomposes(t: TimeState)
    requires Normalised(t)
    ensures MinutesFromMidnight(t) / 60 == t.hour && MinutesFromMidnight(t) % 60 == t.minute
  {
  }

  // ----- clamp -----

  /** `Math.min(Math.max(n, lo), hi)`. */
  function Clamp(n: real, lo: real, hi: real): (r: real)
    ensures lo <= hi ==> lo <= r <= hi
    ensures lo <= n <= hi ==> r == n
    ensures n < lo <= hi ==> r == lo
    ensures lo <= hi < n ==> r == hi
    ensures hi < lo ==> r == hi
  {
    var atLeast := if n > lo then n else lo;
    if atLeast < hi then atLeast else hi
  }

  // ----- calculateLevel -----

  /** `thresholds.find(t => exp >= t.exp)`: the first threshold `exp` meets. */
  function FindThreshold(ts: seq<Threshold>, exp: real): (r: Option<Threshold>)
    ensures r.None? <==> forall i | 0 <= i < |ts| :: exp < ts[i].exp
    ensures r.Some? ==> exists i | 0 <= i < |ts| ::
      ts[i] == r.value && exp >= ts[i].exp && forall j | 0 <= j < i :: exp < ts[j].exp
  {
    if |ts| == 0 then None
    else if exp >= ts[0].exp then Some(ts[0])
    else
      var r := FindThreshold(ts[1..], exp);
      FirstMatchShift(ts, exp, r);
      r
  }

  /** A first match in the tail of `ts` is a first match in `ts` when the
      head does not match. */
  lemma FirstMatchShift(ts: seq<Threshold>, exp: real, r: Option<Threshold>)
    requires |ts| > 0 && exp < ts[0].exp
    requires r.Some? ==> exists i | 0 <= i < |ts[1..]| ::
      ts[1..][i] == r.value && exp >= ts[1..][i].exp && forall j | 0 <= j < i :: exp < ts[1..][j].exp
    ensures r.Some? ==> exists i | 0 <= i < |ts| ::
      ts[i] == r.value && exp >= ts[i].exp && forall j | 0 <= j < i :: exp < ts[j].exp
  {
    if r.Some? {
      var i :| 0 <= i < |ts[1..]| && ts[1..][i] == r.value && exp >= ts[1..][i].exp
               && forall j | 0 <= j < i :: exp < ts[1..][j].exp;
      assert ts[i + 1] == r.value;
      forall j | 0 <= j < i + 1 ensures exp < ts[j].exp {
        if j > 0 { assert ts[j] == ts[1..][j - 1]; }
      }
    }
  }

  /** Letter grade for an amount of experience ('G' when no threshold is
      met): it agrees with the cascade of comparisons, so 'S' exactly from
      320 and 'G' exactly below 10. */
  function CalculateLevel(exp: real): (g: Grade)
    ensures g == GradeByCases(exp)
    ensures g == S <==> exp >= 320.0
    ensures g == G <==> exp < 10.0
  {
    LookupByCases(exp);
    var t := FindThreshold(LevelThresholds, exp);
    if t.Some? then t.value.level else G
  }

  /** The threshold table written out as a cascade of comparisons. */
  function GradeByCases(exp: real): Grade {
    if exp >= 320.0 then S
    else if exp >= 160.0 then A
    else if exp >= 80.0 then B
    else if exp >= 60.0 then C
    else if exp >= 40.0 then D
    else if exp >= 20.0 then E
    else if exp >= 10.0 then F
    else G
  }

  /** The threshold lookup agrees with the cascade on every input. */
  lemma LookupByCases(exp: real)
    ensures var t := FindThreshold(LevelThresholds, exp);
      (if t.Some? then t.value.level else G) == GradeByCases(exp)
  {
    var ts := LevelThresholds;
    var r := FindThreshold(ts, exp);
    if r.Some? {
      var i :| 0 <= i < |ts| && ts[i] == r.value && exp >= ts[i].exp && forall j | 0 <= j < i :: exp < ts[j].exp;
      if i > 0 {
        assert exp < ts[i - 1].exp;
      }
      GradeAt(exp, i);
    } else {
      assert exp < ts[7].exp;
    }
  }

  /** The grade of the threshold at index `i`, when it is the first one met. */
  lemma GradeAt(exp: real, i: int)
    requires 0 <= i < |LevelThresholds| && exp >= LevelThresholds[i].exp
    requires i > 0 ==> exp < LevelThresholds[i - 1].exp
    ensures LevelThresholds[i].level == GradeByCases(exp)
  {
    // One empty branch per index, so that the solver unfolds the table
    // entry and the cascade for each index separately.
    if i == 0 {
    } else if i == 1 {
    } else if i == 2 {
    } else if i == 3 {
    } else if i == 4 {
    } else if i == 5 {
    } else if i == 6 {
    } else {
    }
  }

  /** Position of a grade, G lowest. */
  function Rank(g: Grade): int {
    match g
    case S => 7 case A => 6 case B => 5 case C => 4
    case D => 3 case E => 2 case F => 1 case G => 0
  }

  /** More experience never yields a lower grade. */
  lemma CalculateLevelMonotone(x: real, y: real)
    requires x <= y
    ensures Rank(CalculateLevel(x)) <= Rank(CalculateLevel(y))
  {
  }

  // ----- getGameDate -----

  /** Month lengths from April to March: a 365-day year. */
  const MonthDays: seq<int> := [30, 31, 30, 31, 31, 30, 31, 30, 31, 31, 28, 31]

  /** Days in the months before each month index (April is index 0), and
      the whole year at index 12. */
  const MonthStart: seq<int> := [0, 30, 61, 91, 122, 153, 183, 214, 244, 275, 306, 334, 365]

  /** `MonthStart` holds the running totals of `MonthDays`. */
  lemma MonthStartIsRunningTotal()
    ensures MonthStart[0] == 0
    ensures forall i | 0 <= i < 12 :: MonthStart[i + 1] == MonthStart[i] + MonthDays[i]
  {
  }

  function MonthOfIndex(i: int): int {
    if i + 4 > 12 then i + 4 - 12 else i + 4
  }

  /** Month index counted from April of a calendar month. */
  function IndexOfMonth(month: int): int {
    if month >= 4 then month - 4 else month + 8
  }

  function MonthLength(month: int): int
    requires 1 <= month <= 12
  {
    MonthDays[IndexOfMonth(month)]
  }

  datatype GameDate = GameDate(year: int, month: int, day: int)

  /** The day count a calendar date stands for, day 1 being year 1, April 1. */
  function DayCountOf(d: GameDate): int
    requires 1 <= d.month <= 12
  {
    (d.year - 1) * 365 + MonthStart[IndexOfMonth(d.month)] + d.day
  }

  /** The in-game calendar: for every positive day count the date is a real
      calendar date that counts back to the same day; year 1 begins on
      April 1. Non-positive counts fall through to April, with a day of
      at most 1 taken from the truncated remainder. */
  method GetGameDate(dayCount: int) returns (d: GameDate)
    ensures d.year == 1 + (dayCount - 1) / 365
    ensures dayCount >= 1 ==>
      && 1 <= d.month <= 12
      && 1 <= d.day <= MonthLength(d.month)
      && DayCountOf(d) == dayCount
    ensures dayCount == 1 ==> d == GameDate(1, 4, 1)
    ensures dayCount < 1 ==> d.month == 4 && d.day == JsRem(dayCount - 1, 365) + 1 && d.day <= 1
  {
    var year := 1 + (dayCount - 1) / 365;
    var remaining := JsRem(dayCount - 1, 365);
    var index := 0;
    MonthStartIsRunningTotal();
    while remaining >= MonthDays[index]
      invariant 0 <= index < 12
      invariant dayCount >= 1 ==> remaining >= 0
      invariant remaining + MonthStart[index] == JsRem(dayCount - 1, 365)
      invariant remaining < 365 - MonthStart[index]
      invariant dayCount < 1 ==> index == 0
      decreases 12 - index
    {
      remaining := remaining - MonthDays[index];
      index := index + 1;
    }
    var month := index + 4;
    if month > 12 {
      month := month - 12;
    }
    d := GameDate(year, month, remaining + 1);
    assert IndexOfMonth(month) == index;
  }
}

=== FILE: wrappers.dfy ===
/** The optional-value wrapper used throughout the model for the source's
    `undefined` / optional fields. */
module Wrappers {

  datatype Option<+T> = None | Some(value: T) {

    /** Returns the wrapped value, or `default` when there is none. */
    function GetOr(default: T): T {
      match this
      case Some(v) => v
      case None => default
    }
  }
}
